=== FILE: README.md ===
# gitbackup in Dafny: repository listings and configuration

gitbackup backs up the repositories a user can reach on GitHub, GitLab,
Bitbucket or a Forgejo host. This project models its two pure cores and
proves properties about them.

- **Provider listing normalisation.** Each provider adapter walks one
  hosting API's paged listing. It turns every record it keeps into a
  `Repository{CloneURL, Name, Namespace, Private}`. The model covers:
  - the fork filter and the GitHub namespace whitelist;
  - how the namespace is derived;
  - how the `Private` flag is derived;
  - the GitLab query options;
  - the Forgejo repo-type dispatch;
  - the Bitbucket clone-link parser;
  - the paging loop itself, including its error handling.
- **Configuration.** This part covers:
  - where the YAML file lives;
  - its defaults;
  - its conversion into a run configuration;
  - the `init` and `validate` subcommands;
  - the command-line flags and their defaults;
  - how a run configuration is built from a file and the flags;
  - the check a run must pass;
  - the order in which `main` picks what to do.

Modules, one file each:

| module | file | models |
|---|---|---|
| `Common` | `common.dfy` | `Repository`, `Option`/`Result`, Go's `strings.Split` with a one-character separator, namespace derivation, the filter-and-convert step of the paged listing loops |
| `Paging` | `paging.dfy` | the `for {}` page loop shared by GitHub, GitLab and Forgejo, recursively (`Collect`) and as a loop (`Paginate`) |
| `Github` | `github.dfy` | own and starred repositories |
| `Gitlab` | `gitlab.dfy` | the membership and visibility options, the project listing |
| `Bitbucket` | `bitbucket.dfy` | the workspace walk, `extractBitbucketCloneURLs` |
| `Forgejo` | `forgejo.dfy` | the repo-type dispatch and the page loop that starts at page 1 |
| `Settings` | `settings.dfy` | `appConfig`, the `knownServices` table, the membership selectors |
| `ConfigFile` | `config_file.dfy` | the file's location, defaults and conversion, `init` and `validate` |
| `Options` | `options.dfy` | `appFlags`, `buildConfig`, `validateConfig` |
| `Program` | `main.dfy` | `main`'s dispatch |

How the model stands in for the outside world:

- **Provider APIs.** Each listing endpoint is a function from the requested
  page number to a response: a page of records with the next-page number, or
  an error.
- **Termination.** The Go loops run until the provider announces page 0. The
  model carries `fuel`, the number of requests allowed. Running out of fuel
  is a separate outcome, `Unterminated`.
- **The clone-URL chooser.** `getCloneURL` reads the global `useHTTPSClone`.
  It is a function parameter `pick(https, ssh)`.
- **Backup directory.** `setupBackupDir` is a function parameter.
- **The host.** It is the per-user configuration directory (or its error),
  a map from each existing path to what reading and parsing it yields, and
  the environment as a map.
- **Command-line parsing.** Both the `flag` package and the CLI library are
  parameters. A parsed backup command line is the map of the flags given
  explicitly.
- **Validation messages.** The messages `validate` prints are values of an
  `Issue` datatype.

The two validators differ, and `Options.ValidatorsDiffer` states how. `validate` checks the GitLab membership only for GitLab files. The run checks it for every service. A GitHub file without a `gitlab` section therefore passes `validate` but cannot start a backup unless `--gitlab.projectMembershipType` is given.

## Model

| member | source | states |
|---|---|---|
| Common.NamespaceOf | github.go:35 | the namespace is the part of the full name before its first `/`, or the whole name when there is none |
| Common.SplitJoin | options.go:160-165 | splitting on `,` is exact: joining separator-free pieces with `,` and splitting again gives the same pieces, with no trimming and empty pieces kept |
| Paging.CollectAlongWalk | github.go:26-61 | along any chain of requests that starts at the first page and follows each announced next page: an error on the last request aborts the listing with that error and no partial result; a last page announcing page 0 lists every kept record of every page, in page order |
| Paging.CollectOutcome | github.go:26-61 | the requests the loop makes form such a chain within the fuel, and the last response decides the outcome: page 0 announced means listed, an error means aborted with that error, a further page still announced means unterminated |
| Paging.ListedExactly | github.go:31-56 | a successful listing holds exactly the kept records of the requested pages: each listed value comes from a fetched record, and every fetched record that is kept is listed |
| Paging.Paginate | github.go:26-61 | the imperative loop with an accumulator returns the same outcome as the recursive definition |
| Github.StarredIgnoresTypeAndWhitelist | github.go:20-22 | the `starred` selector gives exactly the starred listing; the whitelist and the own-repositories endpoint do not affect it |
| Github.NormaliseFields | github.go:35-55 | `Name` and `Private` are copied; the namespace is the first segment of the full name; a nil clone or SSH URL reaches the chooser as `""` |
| Github.OwnedListing | github.go:26-62 | a successful own-repositories listing holds exactly the fetched records that are neither ignored forks nor outside a non-empty whitelist, each normalised |
| Github.OwnedListingFilters | github.go:32-39 | with `ignoreFork` no listed repository comes from a fork; with a non-empty whitelist every listed namespace is on it |
| Github.StarredListing | github.go:65-102 | a successful starred listing holds exactly the starred repositories fetched that are not ignored forks, each normalised |
| Github.OwnedPaging | github.go:26-61 | paging starts at page 0 and follows the announced next pages; a failing request aborts with its error; a page announcing page 0 ends the listing with the kept records of all pages |
| Gitlab.MembershipFlags | gitlab.go:22-33 | `owned` is set exactly for owner and all, `membership` exactly for member and all, `starred` exactly for starred and all; any other selector sets none |
| Gitlab.VisibilityFilter | gitlab.go:35-47 | the filter is unset exactly for `all`; public, private and internal map to themselves; default maps to internal; any other selector gives the zero visibility |
| Gitlab.QueryFromSelectors | gitlab.go:17-47 | the query sent to the API carries exactly the membership flags and the visibility filter above: owned, membership and starred each set exactly for their selector or `all`, and the visibility filter is `VisibilityFilter` of the selector |
| Gitlab.ProjectListing | gitlab.go:49-71 | a successful listing holds exactly the fetched projects that are not ignored forks; each is private exactly when its visibility is `private`, has its namespace from its path, and has its clone URL chosen from the web and SSH URLs |
| Gitlab.ProjectPaging | gitlab.go:49-71 | paging starts at page 0 and follows the announced next pages; an error aborts with no partial result; page 0 announced ends the listing |
| Bitbucket.CloneURLsAreLastLinks | bitbucket.go:45-66 | no `clone` list gives two empty URLs; otherwise each URL is the `href` of the last object entry with that name, or empty when there is none |
| Bitbucket.SkippedEntry | bitbucket.go:51-63 | an entry that is not an object, or is named neither `https` nor `ssh`, changes neither URL |
| Bitbucket.Repositories | bitbucket.go:9-43 | a failure to list the workspaces aborts with that error and no list; otherwise the listing succeeds exactly when every workspace's listing does, and then holds, in order, the normalised form of every repository of every workspace; the outcome is never unterminated |
| Bitbucket.WorkspaceListing | bitbucket.go:9-43 | the walk succeeds exactly when every workspace's listing does; it then lists every repository of every workspace, workspaces in order and then listing order, with no fork filter, the slug as name, the listed privacy flag and the namespace from the full name; otherwise the error is the one from the first failing workspace |
| Forgejo.AsResponse | forgejo.go:70-74 | a nil response ends paging just as next page 0 does; otherwise paging continues at the announced page |
| Forgejo.Dispatch | forgejo.go:15-48 | `starred` searches the user's stars and never reads the own-repositories endpoint; `user` and `""` list the user's own repositories and read neither the starred search nor the user's id; any other selector fails with "unknown repo type" and calls neither endpoint |
| Forgejo.PaginateListing | forgejo.go:51-78 | paging starts at page 1; a successful listing holds every record of every requested page, in order and with no filter, with the owner's user name as namespace |
| Forgejo.PaginateAborts | forgejo.go:56-59 | a failing request aborts the page loop with its error and no partial list, and the user-repositories branch wraps it with its message |
| Forgejo.RepositoriesAborts | forgejo.go:15-48 | a failing request aborts `getForgejoRepositories` with no partial list: in the `starred` branch with the starred-search message before the error, in the `user` and empty branch with the user-repositories message |
| Settings.KnownServicesTable | main.go:22-27 | the known services are exactly github, gitlab, bitbucket and forgejo, with hosts github.com, gitlab.com, bitbucket.org and codeberg.org |
| ConfigFile.ResolveConfigPath | config_file.go:16-33 | a non-empty path is used as given; only the empty path falls back to `<config dir>/gitbackup/gitbackup.yml`, and fails when the configuration directory is unknown |
| ConfigFile.ToAppConfig | config_file.go:125-140 | the migration switches are left at their zero values |
| ConfigFile.ConversionRoundTrip | config_file.go:125-140 | the conversion copies each of the twelve file settings to its run setting: converting back gives the same file |
| ConfigFile.LoadConfigFile | config_file.go:144-161 | loading succeeds exactly when the resolved path exists and parses, and then gives that file's settings |
| ConfigFile.HandleInitConfig | config_file.go:91-120 | `init` succeeds exactly when the path resolves and nothing exists there, and it then writes the default file |
| ConfigFile.InitTwiceFails | config_file.go:97-99 | a second `init` at the same path fails with "already exists" |
| ConfigFile.ConfigIssues | config_file.go:176-223 | no issue exactly when the file is acceptable; every reported issue names a rule the file or the environment really breaks, and none is reported twice; an unknown service is the only issue reported for it, and it is reported exactly when the service is unknown |
| ConfigFile.IssueRules | config_file.go:176-223 | each field issue (GitHub repo type, GitLab visibility and membership, Forgejo repo type) and each missing environment variable is reported exactly when the file's service is the one the rule belongs to and the rule is broken |
| ConfigFile.HandleValidateConfig | config_file.go:165-235 | `validate` reports the file valid exactly when it loads and is acceptable; it reports it invalid with exactly the non-empty list of issues `ConfigIssues` finds in the loaded file; it fails exactly when loading fails |
| ConfigFile.DefaultFileValidation | config_file.go:66-87 | the default file's only possible issue is a missing `GITHUB_TOKEN` |
| ConfigFile.InitThenValidate | config_file.go:165-235 | after `init`, `validate` at the same path accepts the written file when `GITHUB_TOKEN` is set |
| Options.NamesIdentify | options.go:12-110 | every flag is found by its name, and no two flags share one |
| Options.Default | options.go:12-110 | exactly the four switches and the migration switches other than the retry count are boolean, and only the retry count is an integer |
| Options.Whitelist | options.go:160-165 | the empty string means no whitelist; otherwise the pieces contain no comma and join back to the flag value, so they are exactly the comma-separated pieces, untrimmed and with empty pieces kept |
| Options.FromCli | options.go:182-205 | without a file, the migration switches are the command line's values or their flag defaults |
| Options.FromCliField | options.go:182-205 | without a file, every one of the twelve settings is its flag's command-line value when given and its flag default otherwise, the whitelist split at commas |
| Options.Merge | options.go:176-181 | with a file, the migration switches still come from the command line |
| Options.MergeField | options.go:134-175 | with a file, a setting takes the command line's value exactly when its flag was given (and, for the whitelist, was not empty), and keeps the file's value otherwise |
| Options.MergeAllGiven | options.go:134-175 | when the command line overrides every setting, the loaded file makes no difference: the result is the configuration built from the command line alone |
| Options.MergeNoneGiven | options.go:134-175 | when the command line overrides no setting, the result is the file's configuration with only the migration switches from the command line |
| Options.WithBackupDir | options.go:207 | the backup directory becomes the set-up directory for the service and host, and nothing else changes |
| Options.BuildConfig | options.go:115-209 | with no file at the resolved path, the run uses the command line alone; a file that exists but cannot be read or parsed fails the build; a parsed file is merged; the migration switches always come from the command line |
| Options.FilePrecedence | options.go:122-175 | only a file that exists but does not parse stops the run; a given flag wins over the file, a missing flag keeps the file's value, and an explicitly empty whitelist flag keeps the file's whitelist |
| Options.NoFlagsNoFile | options.go:12-110 | with no file and no flags, the run configuration is `FlagDefaults` with the backup directory set up: repo type all, visibility internal, membership all, Forgejo repo type user, retry on, five retries, wait on, every other switch off |
| Options.DefaultsAgree | config_file.go:65-87 | the default file holds the flag defaults for every setting except the service, which is `github` where the flag default is empty |
| Options.ValidateConfig | options.go:212-221 | a run is accepted exactly when its service is known and its GitLab membership is valid, whatever the service; the service message comes first |
| Options.ValidFileValidRun | options.go:212-221 | a file that `validate` accepts, with no flags given, builds a run that is accepted too, provided its GitLab membership is valid; for a GitLab file `validate` already requires that |
| Options.ValidatorsDiffer | options.go:217-219 | a GitHub file with an empty GitLab section passes `validate`, but the run refuses it with the membership message |
| Program.Operation | main.go:77-83 | listing migrations wins over creating one, and cloning runs only when neither is requested |
| Program.Run | main.go:43-87 | the subcommands never start an operation; every operation runs on a configuration that passed validation and names a known service |
| Program.SubcommandsFirst | main.go:46-61 | `init` and `validate` are handled before the backup command line is parsed; neither that parser nor the backup directory set-up affects them |
| Program.OperationsAreValidated | main.go:63-83 | an operation starts only after the command line parsed, the configuration was built and validation passed, and it is the operation that configuration selects |
| Program.InitThenValidateRun | main.go:46-59 | `gitbackup init` followed by `gitbackup validate` with the same arguments reports the written file valid when `GITHUB_TOKEN` is set |

## Left out

- HTTP and SDK calls: `client.Repositories.List`, `Activity.ListStarred`, `Projects.ListProjects`, `Workspaces.List`, `Repositories.ListForAccount`, `SearchRepos` and `ListMyRepos` are pure function parameters (foreign library I/O).
- `GetMyUserInfo` and its `log.Fatalf`/`log.Printf` in the Forgejo `starred` branch: the user's id is a parameter (process exit and logging).
- Termination of the paging loops: it depends on the provider announcing page 0; `fuel` bounds the number of requests and running out of it is the `Unterminated` outcome, which the source does not have.
- Go's `for {}` is modelled on its requests, not on time or rate limits.
- `getCloneURL`, `setupBackupDir`, `newClient`, `initConfig`: not part of this model. `getCloneURL` and `setupBackupDir` are function parameters, and `initConfig` is taken to be the command-line parse followed by `buildConfig`.
- `validGitlabProjectMembership` and `contains` are defined outside the Go files modelled here. Membership is taken to be the four selectors all, owner, member and starred, as both error messages list them, and `contains` is sequence membership.
- YAML marshalling and unmarshalling: a stored file is already `Parsed`, `Malformed` or `Unreadable` (library code).
- `os.UserConfigDir`, `os.Stat`, `os.ReadFile` and `os.Getenv` are the `World`'s fields (OS calls).
- `filepath.Join` cleaning of the default path is not modelled: the default path is the directory followed by `/gitbackup/gitbackup.yml`.
- `os.MkdirAll` and `os.WriteFile` failures in `init`: a successful `init` is the file it would write (filesystem errors).
- Error and message texts: `%v` of OS and SDK errors and `%q` quoting of `validate`'s messages are approximated or replaced by `Issue` values. The text of a missing file's read error is a constant.
- Parsing of the command line by the `flag` package (`parseSubcommandFlags`) and by the CLI library: both are parameters (library plumbing).
- The clone and sync engine, its worker pool of `MaxConcurrentClones` (20) workers, and the GitHub migration handlers are left out: the run ends at the operation it selects (concurrency and network).
- Bitbucket.Repositories: requires that every `https` or `ssh` clone entry the loop reaches has a string `href`, where Go panics on the type assertion.
- Github and Forgejo records: the fields Go reads through a pointer without a nil check are plain values here. These are `Fork`, `FullName`, `Name` and `Private` of a GitHub repository (github.go:32,35,52,54), the `Repository` of a GitHub star (github.go:75) and the `Owner` of a Forgejo repository (forgejo.go:65). So the nil-pointer panics the source would raise on such records are assumed away by the record types.

=== FILE: bitbucket.dfy ===
/** The Bitbucket adapter (`getBitbucketRepositories`,
    `extractBitbucketCloneURLs`): every repository of every workspace the
    user belongs to, with its clone URLs dug out of the untyped `links` map
    of the API response. */
module Bitbucket {
  import opened Common
  import opened Paging

  /** A decoded JSON value as Go sees it behind `interface{}`: a string, a
      list (`[]interface{}`), an object (`map[string]interface{}`), or any
      other scalar (number, boolean, null). */
  datatype Json = Str(s: string) | List(items: seq<Json>) | Object(fields: map<string, Json>) | Scalar

  datatype Workspace = Workspace(slug: string)

  /** The fields of a listed Bitbucket repository that the adapter reads. */
  datatype RemoteRepo = RemoteRepo(fullName: string, slug: string, isPrivate: bool, links: map<string, Json>)

  /** Go's `linkmap["name"] == "https"`: a missing key reads as nil, and an
      interface value equals a string constant only when it is that string. */
  predicate Named(link: map<string, Json>, name: string) {
    "name" in link && link["name"] == Str(name)
  }

  /** `links["clone"].([]interface{})`: the clone entries, or `None` when
      the key is missing or does not hold a list. */
  function CloneEntries(links: map<string, Json>): Option<seq<Json>>
  {
    if "clone" in links && links["clone"].List? then Some(links["clone"].items) else None
  }

  /** The loop reads `linkmap["href"].(string)` for every object entry named
      `https` or `ssh`; the type assertion panics unless that is a string. */
  predicate HrefReadable(entry: Json) {
    entry.Object? && (Named(entry.fields, "https") || Named(entry.fields, "ssh")) ==>
      "href" in entry.fields && entry.fields["href"].Str?
  }

  predicate AllHrefsReadable(entries: seq<Json>) {
    forall i :: 0 <= i < |entries| ==> HrefReadable(entries[i])
  }

  predicate LinksReadable(links: map<string, Json>) {
    CloneEntries(links).Some? ==> AllHrefsReadable(CloneEntries(links).value)
  }

  /** One iteration of the loop over clone entries: an entry that is not an
      object is skipped; an `https` or `ssh` entry replaces that URL. */
  function Step(entry: Json, urls: (string, string)): (string, string)
    requires HrefReadable(entry)
  {
    if !entry.Object? then urls
    else
      var https := if Named(entry.fields, "https") then entry.fields["href"].s else urls.0;
      var ssh := if Named(entry.fields, "ssh") then entry.fields["href"].s else urls.1;
      (https, ssh)
  }

  /** The loop over clone entries, front to back. */
  function Scan(entries: seq<Json>, urls: (string, string)): (string, string)
    requires AllHrefsReadable(entries)
    decreases |entries|
  {
    if |entries| == 0 then urls
    else Scan(entries[1..], Step(entries[0], urls))
  }

  /** `extractBitbucketCloneURLs`: the HTTPS and the SSH clone URL. */
  function CloneURLs(links: map<string, Json>): (string, string)
    requires LinksReadable(links)
  {
    match CloneEntries(links)
    case None => ("", "")
    case Some(entries) => Scan(entries, ("", ""))
  }

  /** Reference reading: the `href` of the last object entry carrying `name`. */
  function LastHref(entries: seq<Json>, name: string): Option<string>
    requires name == "https" || name == "ssh"
    requires AllHrefsReadable(entries)
    decreases |entries|
  {
    if |entries| == 0 then None
    else
      var e := entries[|entries| - 1];
      assert HrefReadable(e);
      if e.Object? && Named(e.fields, name) then Some(e.fields["href"].s)
      else LastHref(entries[..|entries| - 1], name)
  }

  lemma {:induction false} ScanSnoc(entries: seq<Json>, e: Json, urls: (string, string))
    requires AllHrefsReadable(entries + [e])
    ensures AllHrefsReadable(entries) && HrefReadable(e)
    ensures Scan(entries + [e], urls) == Step(e, Scan(entries, urls))
    decreases |entries|
  {
    assert HrefReadable((entries + [e])[|entries|]);
    assert AllHrefsReadable(entries) by {
      forall i | 0 <= i < |entries| ensures HrefReadable(entries[i]) {
        assert entries[i] == (entries + [e])[i];
      }
    }
    if |entries| > 0 {
      assert (entries + [e])[1..] == entries[1..] + [e];
      ScanSnoc(entries[1..], e, Step(entries[0], urls));
    }
  }

  /** Last entry wins: scanning front to back leaves, for each of the two
      names, the `href` of the last entry with that name, and the starting
      value when there is none. */
  lemma {:induction false} ScanKeepsLast(entries: seq<Json>, urls: (string, string))
    requires AllHrefsReadable(entries)
    ensures Scan(entries, urls) == (LastHref(entries, "https").GetOr(urls.0), LastHref(entries, "ssh").GetOr(urls.1))
    decreases |entries|
  {
    if |entries| > 0 {
      var front := entries[..|entries| - 1];
      var e := entries[|entries| - 1];
      assert entries == front + [e];
      ScanSnoc(front, e, urls);
      ScanKeepsLast(front, urls);
    }
  }

  /** `extractBitbucketCloneURLs` gives two empty URLs when `links["clone"]`
      is missing or not a list, and otherwise the `href` of the last entry
      named `https` and of the last entry named `ssh`, each empty when there
      is no such entry; entries that are not objects, or carry neither name,
      contribute nothing. */
  lemma CloneURLsAreLastLinks(links: map<string, Json>)
    requires LinksReadable(links)
    ensures CloneEntries(links).None? ==> CloneURLs(links) == ("", "")
    ensures CloneEntries(links).Some? ==>
      CloneURLs(links) == (LastHref(CloneEntries(links).value, "https").GetOr(""),
                           LastHref(CloneEntries(links).value, "ssh").GetOr(""))
  {
    if CloneEntries(links).Some? {
      ScanKeepsLast(CloneEntries(links).value, ("", ""));
    }
  }

  lemma {:induction false} LastHrefSkips(before: seq<Json>, e: Json, after: seq<Json>, name: string)
    requires name == "https" || name == "ssh"
    requires AllHrefsReadable(before + [e] + after)
    requires !e.Object? || (!Named(e.fields, "https") && !Named(e.fields, "ssh"))
    ensures AllHrefsReadable(before + after)
    ensures LastHref(before + [e] + after, name) == LastHref(before + after, name)
    decreases |after|
  {
    var all := before + [e] + after;
    assert AllHrefsReadable(before + after) by {
      forall i | 0 <= i < |before + after| ensures HrefReadable((before + after)[i]) {
        if i < |before| {
          assert (before + after)[i] == all[i];
        } else {
          assert (before + after)[i] == all[i + 1];
        }
      }
    }
    if |after| == 0 {
      assert all[..|all| - 1] == before;
      assert before + after == before;
    } else {
      var last := after[|after| - 1];
      var init := after[..|after| - 1];
      assert all[..|all| - 1] == before + [e] + init;
      assert (before + after)[..|before + after| - 1] == before + init;
      assert AllHrefsReadable(before + [e] + init) by {
        forall i | 0 <= i < |before + [e] + init| ensures HrefReadable((before + [e] + init)[i]) {
          assert (before + [e] + init)[i] == all[i];
        }
      }
      LastHrefSkips(before, e, init, name);
    }
  }

  /** An entry that is not an object, or whose name is neither `https` nor
      `ssh`, changes nothing: the loop gives the same URLs without it. */
  lemma SkippedEntry(before: seq<Json>, e: Json, after: seq<Json>, urls: (string, string))
    requires AllHrefsReadable(before + [e] + after)
    requires !e.Object? || (!Named(e.fields, "https") && !Named(e.fields, "ssh"))
    ensures AllHrefsReadable(before + after)
    ensures Scan(before + [e] + after, urls) == Scan(before + after, urls)
  {
    LastHrefSkips(before, e, after, "https");
    LastHrefSkips(before, e, after, "ssh");
    ScanKeepsLast(before + [e] + after, urls);
    ScanKeepsLast(before + after, urls);
  }

  /** The repository record built from a listed Bitbucket repository. */
  function Normalise(repo: RemoteRepo, pick: (string, string) -> string): Repository
    requires LinksReadable(repo.links)
  {
    var urls := CloneURLs(repo.links);
    Repository(pick(urls.0, urls.1), repo.slug, NamespaceOf(repo.fullName), repo.isPrivate)
  }

  /** No listed repository the loop reaches makes the link parser panic:
      every workspace is visited in order until the first failing listing. */
  predicate ReachedLinksReadable(workspaces: seq<Workspace>, listForAccount: string -> Result<seq<RemoteRepo>>)
    decreases |workspaces|
  {
    |workspaces| == 0 ||
    match listForAccount(workspaces[0].slug)
    case Err(_) => true
    case Ok(items) =>
      && (forall i :: 0 <= i < |items| ==> LinksReadable(items[i].links))
      && ReachedLinksReadable(workspaces[1..], listForAccount)
  }

  function NormaliseAll(items: seq<RemoteRepo>, pick: (string, string) -> string): (rs: seq<Repository>)
    requires forall i :: 0 <= i < |items| ==> LinksReadable(items[i].links)
    ensures |rs| == |items|
    ensures forall i :: 0 <= i < |items| ==> rs[i] == Normalise(items[i], pick)
  {
    seq(|items|, i requires 0 <= i < |items| => Normalise(items[i], pick))
  }

  /** The loop over workspaces, one `ListForAccount` call per workspace. */
  function AcrossWorkspaces(
    workspaces: seq<Workspace>, listForAccount: string -> Result<seq<RemoteRepo>>,
    pick: (string, string) -> string): Listing<Repository>
    requires ReachedLinksReadable(workspaces, listForAccount)
    decreases |workspaces|
  {
    if |workspaces| == 0 then Listed([])
    else match listForAccount(workspaces[0].slug)
      case Err(e) => Aborted(e)
      case Ok(items) => Prepend(NormaliseAll(items, pick), AcrossWorkspaces(workspaces[1..], listForAccount, pick))
  }

  /** `getBitbucketRepositories`: a failure to list the workspaces aborts
      with that error and no list; otherwise the listing succeeds exactly
      when every workspace's listing does, and then holds every listed
      repository of every workspace, in order, normalised. */
  function Repositories(
    workspaces: Result<seq<Workspace>>, listForAccount: string -> Result<seq<RemoteRepo>>,
    pick: (string, string) -> string): (r: Listing<Repository>)
    requires workspaces.Ok? ==> ReachedLinksReadable(workspaces.value, listForAccount)
    ensures workspaces.Err? ==> r == Aborted(workspaces.error)
    ensures workspaces.Ok? ==>
      (r.Listed? <==> forall i :: 0 <= i < |workspaces.value| ==> listForAccount(workspaces.value[i].slug).Ok?)
    ensures r.Listed? ==>
      var items := AllItems(workspaces.value, listForAccount);
      && |r.repos| == |items|
      && forall i :: 0 <= i < |items| ==> LinksReadable(items[i].links) && r.repos[i] == Normalise(items[i], pick)
    ensures !r.Unterminated?
  {
    match workspaces
    case Err(e) => Aborted(e)
    case Ok(ws) =>
      WorkspaceListing(ws, listForAccount, pick);
      AcrossWorkspaces(ws, listForAccount, pick)
  }

  /** The repositories of the workspaces, in workspace order and then in
      listing order, when every listing succeeds. */
  function AllItems(workspaces: seq<Workspace>, listForAccount: string -> Result<seq<RemoteRepo>>): seq<RemoteRepo>
    decreases |workspaces|
  {
    if |workspaces| == 0 then []
    else
      (match listForAccount(workspaces[0].slug) case Ok(items) => items case Err(_) => [])
      + AllItems(workspaces[1..], listForAccount)
  }

  /** The workspace walk succeeds exactly when every workspace's listing
      does; it then lists every repository of every workspace (there is no
      fork filter), workspaces in order and each workspace's repositories in
      order, with `Name` the slug, `Private` the listed flag and the
      namespace the part of the full name before the first `/`. Otherwise it
      aborts with the error of the first failing workspace. */
  lemma {:induction false} WorkspaceListing(
    workspaces: seq<Workspace>, listForAccount: string -> Result<seq<RemoteRepo>>,
    pick: (string, string) -> string)
    requires ReachedLinksReadable(workspaces, listForAccount)
    ensures AcrossWorkspaces(workspaces, listForAccount, pick).Listed? <==>
      forall i :: 0 <= i < |workspaces| ==> listForAccount(workspaces[i].slug).Ok?
    ensures AcrossWorkspaces(workspaces, listForAccount, pick).Listed? ==>
      var items := AllItems(workspaces, listForAccount);
      var rs := AcrossWorkspaces(workspaces, listForAccount, pick).repos;
      && |rs| == |items|
      && (forall i :: 0 <= i < |items| ==> LinksReadable(items[i].links))
      && (forall i :: 0 <= i < |items| ==>
            && rs[i] == Normalise(items[i], pick)
            && rs[i].name == items[i].slug
            && rs[i].private == items[i].isPrivate
            && IsFirstSegment(rs[i].namespace, items[i].fullName))
    ensures AcrossWorkspaces(workspaces, listForAccount, pick).Aborted? ==>
      exists i :: 0 <= i < |workspaces|
        && (forall j :: 0 <= j < i ==> listForAccount(workspaces[j].slug).Ok?)
        && listForAccount(workspaces[i].slug) == Err(AcrossWorkspaces(workspaces, listForAccount, pick).err)
    ensures !AcrossWorkspaces(workspaces, listForAccount, pick).Unterminated?
    decreases |workspaces|
  {
    if |workspaces| > 0 {
      var rest := workspaces[1..];
      forall i | 1 <= i < |workspaces| ensures workspaces[i] == rest[i - 1] { }
      match listForAccount(workspaces[0].slug)
      case Err(e) =>
      case Ok(items) =>
        WorkspaceListing(rest, listForAccount, pick);
        var tail := AcrossWorkspaces(rest, listForAccount, pick);
        if tail.Listed? {
          assert forall i :: 0 <= i < |rest| ==> listForAccount(rest[i].slug).Ok?;
          assert AllItems(workspaces, listForAccount) == items + AllItems(rest, listForAccount);
        } else if tail.Aborted? {
          var k :| 0 <= k < |rest|
            && (forall j :: 0 <= j < k ==> listForAccount(rest[j].slug).Ok?)
            && listForAccount(rest[k].slug) == Err(tail.err);
          assert listForAccount(workspaces[k + 1].slug) == Err(tail.err);
          assert forall j :: 0 <= j < k + 1 ==> listForAccount(workspaces[j].slug).Ok?;
        }
    }
  }
}

=== FILE: common.dfy ===
/** Shared vocabulary of the backup tool: the normalised `Repository` record,
    optional values and results, and the string and sequence helpers the
    provider adapters and the configuration code both rely on. */
module Common {

  /** A Go pointer that may be nil, or a lookup that may miss. */
  datatype Option<+T> = None | Some(value: T) {
    function GetOr(default: T): T {
      match this
      case Some(v) => v
      case None => default
    }
  }

  /** A Go `(value, error)` pair in which exactly one side is meaningful. */
  datatype Result<+T> = Ok(value: T) | Err(error: string)

  /** The unit of work every provider adapter produces (`Repository` in the source). */
  datatype Repository = Repository(cloneURL: string, name: string, namespace: string, private: bool)

  /** A nil `*string` read as Go's zero value. */
  function OrEmpty(s: Option<string>): (r: string)
    ensures s.Some? ==> r == s.value
    ensures s.None? ==> r == ""
  {
    s.GetOr("")
  }

  // ---------------------------------------------------------------------------
  // strings.Split with a one-character separator

  /** Position of the first `sep` in `s`, or `|s|` when there is none. */
  function IndexOf(s: string, sep: char): (i: nat)
    ensures i <= |s|
    ensures i < |s| ==> s[i] == sep
    ensures sep !in s[..i]
  {
    if |s| == 0 then 0
    else if s[0] == sep then 0
    else
      assert s[..1 + IndexOf(s[1..], sep)] == [s[0]] + s[1..][..IndexOf(s[1..], sep)];
      1 + IndexOf(s[1..], sep)
  }

  /** Glues pieces together with `sep` between them; the inverse of `Split`. */
  function Join(parts: seq<string>, sep: char): string
  {
    if |parts| == 0 then ""
    else if |parts| == 1 then parts[0]
    else parts[0] + [sep] + Join(parts[1..], sep)
  }

  /** Go's `strings.Split(s, sep)`: no trimming, empty pieces kept, and a
      string without `sep` (the empty string included) gives one piece. */
  function Split(s: string, sep: char): (parts: seq<string>)
    ensures |parts| >= 1
    ensures parts[0] == s[..IndexOf(s, sep)]
    ensures forall i :: 0 <= i < |parts| ==> sep !in parts[i]
    ensures Join(parts, sep) == s
    decreases |s|
  {
    var i := IndexOf(s, sep);
    if i == |s| then
      assert s[..i] == s;
      [s]
    else
      var rest := Split(s[i + 1..], sep);
      assert Join([s[..i]] + rest, sep) == s[..i] + [sep] + Join(rest, sep) by {
        assert ([s[..i]] + rest)[1..] == rest;
      }
      assert s == s[..i] + [sep] + s[i + 1..];
      [s[..i]] + rest
  }

  lemma {:induction false} IndexOfJoined(a: string, sep: char, b: string)
    requires sep !in a
    ensures IndexOf(a + [sep] + b, sep) == |a|
    decreases |a|
  {
    var s := a + [sep] + b;
    if |a| == 0 {
      assert s[0] == sep;
    } else {
      assert s[0] == a[0] && a[0] != sep;
      assert s[1..] == a[1..] + [sep] + b;
      IndexOfJoined(a[1..], sep, b);
    }
  }

  lemma {:induction false} IndexOfAbsent(a: string, sep: char)
    requires sep !in a
    ensures IndexOf(a, sep) == |a|
    decreases |a|
  {
    if |a| > 0 {
      assert a[0] != sep;
      IndexOfAbsent(a[1..], sep);
    }
  }

  /** Splitting is injective on separator-free pieces: joining any non-empty
      list of such pieces and splitting the result gives the list back. */
  lemma {:induction false} SplitJoin(parts: seq<string>, sep: char)
    requires |parts| >= 1
    requires forall i :: 0 <= i < |parts| ==> sep !in parts[i]
    ensures Split(Join(parts, sep), sep) == parts
    decreases |parts|
  {
    if |parts| == 1 {
      IndexOfAbsent(parts[0], sep);
    } else {
      var rest := Join(parts[1..], sep);
      var s := parts[0] + [sep] + rest;
      assert Join(parts, sep) == s;
      IndexOfJoined(parts[0], sep, rest);
      assert s[..|parts[0]|] == parts[0];
      assert s[|parts[0]| + 1..] == rest;
      SplitJoin(parts[1..], sep);
      assert parts == [parts[0]] + parts[1..];
    }
  }

  // ---------------------------------------------------------------------------
  // Namespace derivation

  /** `ns` is the part of `fullName` before its first `/`, or all of it. */
  ghost predicate IsFirstSegment(ns: string, fullName: string) {
    && |ns| <= |fullName|
    && ns == fullName[..|ns|]
    && '/' !in ns
    && (|ns| < |fullName| ==> fullName[|ns|] == '/')
  }

  /** `strings.Split(fullName, "/")[0]`, the namespace of an `owner/name` path. */
  function NamespaceOf(fullName: string): (ns: string)
    ensures IsFirstSegment(ns, fullName)
  {
    Split(fullName, '/')[0]
  }

  /** The first segment is determined by the full name alone. */
  lemma FirstSegmentUnique(a: string, b: string, fullName: string)
    requires IsFirstSegment(a, fullName) && IsFirstSegment(b, fullName)
    ensures a == b
  {
  }

  // ---------------------------------------------------------------------------
  // The per-item filter-and-convert step of the paged listing loops

  /** Keeps, in order, the images of the items that `f` admits: the body of a
      Go `for _, x := range xs { if skip { continue }; out = append(out, conv(x)) }`. */
  function FilterMap<T, R>(xs: seq<T>, f: T -> Option<R>): (r: seq<R>)
    ensures |r| <= |xs|
    decreases |xs|
  {
    if |xs| == 0 then []
    else
      var rest := FilterMap(xs[1..], f);
      match f(xs[0])
      case Some(y) => [y] + rest
      case None => rest
  }

  /** Nothing admitted is lost. */
  lemma {:induction false} FilterMapKeeps<T, R>(xs: seq<T>, f: T -> Option<R>, x: T)
    requires x in xs && f(x).Some?
    ensures f(x).value in FilterMap(xs, f)
    decreases |xs|
  {
    if x != xs[0] {
      FilterMapKeeps(xs[1..], f, x);
    }
  }

  /** Nothing is invented: every kept value is the image of some item. */
  lemma {:induction false} FilterMapOrigin<T, R>(xs: seq<T>, f: T -> Option<R>, y: R)
    requires y in FilterMap(xs, f)
    ensures exists x :: x in xs && f(x) == Some(y)
    decreases |xs|
  {
    var rest := FilterMap(xs[1..], f);
    if f(xs[0]) != Some(y) {
      assert y in rest;
      FilterMapOrigin(xs[1..], f, y);
      var x :| x in xs[1..] && f(x) == Some(y);
      assert x in xs;
    }
  }

  /** When `f` admits every item, nothing is dropped and order is kept. */
  lemma {:induction false} FilterMapAll<T, R>(xs: seq<T>, f: T -> Option<R>)
    requires forall x :: x in xs ==> f(x).Some?
    ensures |FilterMap(xs, f)| == |xs|
    ensures forall i :: 0 <= i < |xs| ==> FilterMap(xs, f)[i] == f(xs[i]).value
    decreases |xs|
  {
    if |xs| > 0 {
      assert xs[0] in xs;
      assert forall x :: x in xs[1..] ==> x in xs;
      FilterMapAll(xs[1..], f);
      forall i | 1 <= i < |xs| ensures FilterMap(xs, f)[i] == f(xs[i]).value {
        assert xs[i] == xs[1..][i - 1];
      }
    }
  }

  lemma {:induction false} FilterMapAppend<T, R>(a: seq<T>, b: seq<T>, f: T -> Option<R>)
    ensures FilterMap(a + b, f) == FilterMap(a, f) + FilterMap(b, f)
    decreases |a|
  {
    if |a| > 0 {
      assert (a + b)[0] == a[0];
      assert (a + b)[1..] == a[1..] + b;
      FilterMapAppend(a[1..], b, f);
    } else {
      assert a + b == b;
    }
  }
}

=== FILE: config_file.dfy ===
/** The YAML configuration file (`config_file.go`): where it lives, its
    defaults, its conversion into a run configuration, and the `init` and
    `validate` subcommands.

    The file system is a map from the paths that exist to what reading and
    parsing each one yields; environment variables are a map from name to
    value. */
module ConfigFile {
  import opened Common
  import opened Settings

  datatype GithubSection = GithubSection(repoType: string, namespaceWhitelist: seq<string>)
  datatype GitlabSection = GitlabSection(projectVisibility: string, projectMembershipType: string)
  datatype ForgejoSection = ForgejoSection(repoType: string)

  /** `fileConfig`: the settings a file may hold; no migration switches. */
  datatype FileConfig = FileConfig(
    service: string,
    gitHostURL: string,
    backupDir: string,
    ignorePrivate: bool,
    ignoreFork: bool,
    useHTTPSClone: bool,
    bare: bool,
    github: GithubSection,
    gitlab: GitlabSection,
    forgejo: ForgejoSection)

  /** What reading and parsing an existing file yields: its settings, a YAML
      error, or a read error (the file exists but cannot be read). */
  datatype StoredFile = Parsed(config: FileConfig) | Malformed(reason: string) | Unreadable(reason: string)

  /** The read error of a path that does not exist. */
  const NotExist := "file does not exist"

  type Files = map<string, StoredFile>

  const DefaultConfigFile := "gitbackup.yml"

  /** `defaultConfigPath`, given the result of asking the OS for its
      per-user configuration directory. */
  function DefaultConfigPath(configDir: Result<string>): Result<string>
  {
    match configDir
    case Err(e) => Err("unable to determine config directory: " + e)
    case Ok(dir) => Ok(dir + "/gitbackup/" + DefaultConfigFile)
  }

  /** `resolveConfigPath`. */
  function ResolveConfigPath(configPath: string, configDir: Result<string>): (r: Result<string>)
    ensures configPath != "" ==> r == Ok(configPath)
    ensures configPath == "" && configDir.Ok? ==> r == Ok(configDir.value + "/gitbackup/" + DefaultConfigFile)
    ensures configPath == "" && configDir.Err? ==> r.Err?
  {
    if configPath != "" then Ok(configPath) else DefaultConfigPath(configDir)
  }

  /** `defaultFileConfig`. */
  function DefaultFileConfig(): FileConfig
  {
    FileConfig(
      "github", "", "", false, false, false, false,
      GithubSection("all", []),
      GitlabSection("internal", "all"),
      ForgejoSection("user"))
  }

  /** `fileConfigToAppConfig`: every file setting to its run setting, with
      the migration switches at their zero values. */
  function ToAppConfig(fc: FileConfig): (c: AppConfig)
    ensures c.migration == NoMigration
  {
    AppConfig(
      fc.service, fc.gitHostURL, fc.backupDir,
      fc.ignorePrivate, fc.ignoreFork, fc.useHTTPSClone, fc.bare,
      fc.github.repoType, fc.github.namespaceWhitelist,
      fc.gitlab.projectVisibility, fc.gitlab.projectMembershipType,
      fc.forgejo.repoType,
      NoMigration)
  }

  /** The file a run configuration would be saved as. */
  function FromAppConfig(c: AppConfig): FileConfig
  {
    FileConfig(
      c.service, c.gitHostURL, c.backupDir,
      c.ignorePrivate, c.ignoreFork, c.useHTTPSClone, c.bare,
      GithubSection(c.githubRepoType, c.githubNamespaceWhitelist),
      GitlabSection(c.gitlabProjectVisibility, c.gitlabProjectMembershipType),
      ForgejoSection(c.forgejoRepoType))
  }

  /** The conversion loses nothing: converting back gives the file, and a
      run configuration without migration switches is the conversion of its
      own file. */
  lemma ConversionRoundTrip(fc: FileConfig, c: AppConfig)
    ensures FromAppConfig(ToAppConfig(fc)) == fc
    ensures c.migration == NoMigration ==> ToAppConfig(FromAppConfig(c)) == c
  {
  }

  /** `loadConfigFile`: resolve the path, read, parse. */
  function LoadConfigFile(configPath: string, configDir: Result<string>, files: Files): (r: Result<FileConfig>)
    ensures r.Ok? ==> ResolveConfigPath(configPath, configDir).Ok?
    ensures r.Ok? ==>
      (ResolveConfigPath(configPath, configDir).value in files
       && files[ResolveConfigPath(configPath, configDir).value] == Parsed(r.value))
    ensures (ResolveConfigPath(configPath, configDir).Ok?
             && ResolveConfigPath(configPath, configDir).value in files
             && files[ResolveConfigPath(configPath, configDir).value].Parsed?) ==> r.Ok?
  {
    match ResolveConfigPath(configPath, configDir)
    case Err(e) => Err(e)
    case Ok(path) =>
      if path !in files then Err("error reading " + path + ": " + NotExist)
      else match files[path]
        case Unreadable(reason) => Err("error reading " + path + ": " + reason)
        case Malformed(reason) => Err("error parsing " + path + ": " + reason)
        case Parsed(cfg) => Ok(cfg)
  }

  // ---------------------------------------------------------------------------
  // init

  /** What a successful `init` writes. */
  datatype Created = Created(path: string, content: FileConfig)

  /** `handleInitConfig`, given the set of paths that already exist. */
  function HandleInitConfig(configPath: string, configDir: Result<string>, existing: set<string>): (r: Result<Created>)
    ensures r.Ok? ==> r.value.path !in existing && r.value.content == DefaultFileConfig()
    ensures r.Ok? <==> ResolveConfigPath(configPath, configDir).Ok? && ResolveConfigPath(configPath, configDir).value !in existing
  {
    match ResolveConfigPath(configPath, configDir)
    case Err(e) => Err(e)
    case Ok(path) =>
      if path in existing then Err(path + " already exists")
      else Ok(Created(path, DefaultFileConfig()))
  }

  /** A second `init` at the same place refuses to overwrite the first. */
  lemma InitTwiceFails(configPath: string, configDir: Result<string>, existing: set<string>)
    requires HandleInitConfig(configPath, configDir, existing).Ok?
    ensures var path := HandleInitConfig(configPath, configDir, existing).value.path;
      HandleInitConfig(configPath, configDir, existing + {path}) == Err(path + " already exists")
  {
  }

  // ---------------------------------------------------------------------------
  // validate

  /** What `validate` reports, one value per appended message. */
  datatype Issue =
    | InvalidService(service: string)
    | InvalidGithubRepoType(repoType: string)
    | InvalidGitlabVisibility(visibility: string)
    | InvalidGitlabMembership(membershipType: string)
    | InvalidForgejoRepoType(repoType: string)
    | MissingVariable(name: string)
    | MissingBitbucketSecret

  /** `os.Getenv`: an unset variable reads as the empty string. */
  function Getenv(env: map<string, string>, name: string): string
  {
    if name in env then env[name] else ""
  }

  /** The rules for a service's field values; a service without field
      rules, or an unknown one, has nothing to break. */
  ghost predicate FieldsAcceptable(cfg: FileConfig) {
    && (cfg.service == "github" ==> cfg.github.repoType in {"all", "owner", "member", "starred"})
    && (cfg.service == "gitlab" ==>
          cfg.gitlab.projectVisibility in {"internal", "public", "private"}
          && ValidGitlabProjectMembership(cfg.gitlab.projectMembershipType))
    && (cfg.service == "forgejo" ==> cfg.forgejo.repoType in {"user", "starred"})
  }

  /** The environment variables each service needs. */
  ghost predicate EnvAcceptable(cfg: FileConfig, env: map<string, string>) {
    && (cfg.service == "github" ==> Getenv(env, "GITHUB_TOKEN") != "")
    && (cfg.service == "gitlab" ==> Getenv(env, "GITLAB_TOKEN") != "")
    && (cfg.service == "bitbucket" ==>
          Getenv(env, "BITBUCKET_USERNAME") != ""
          && (Getenv(env, "BITBUCKET_TOKEN") != "" || Getenv(env, "BITBUCKET_PASSWORD") != ""))
    && (cfg.service == "forgejo" ==> Getenv(env, "FORGEJO_TOKEN") != "")
  }

  /** The rules a loaded file must meet. */
  ghost predicate Acceptable(cfg: FileConfig, env: map<string, string>) {
    cfg.service in {"github", "gitlab", "bitbucket", "forgejo"} && FieldsAcceptable(cfg) && EnvAcceptable(cfg, env)
  }

  /** What an issue reports is a rule the loaded file or the environment
      actually breaks: one case per kind of issue. */
  ghost predicate Broken(i: Issue, cfg: FileConfig, env: map<string, string>) {
    match i
    case InvalidService(s) =>
      s == cfg.service && s !in {"github", "gitlab", "bitbucket", "forgejo"}
    case InvalidGithubRepoType(t) =>
      cfg.service == "github" && t == cfg.github.repoType && t !in {"all", "owner", "member", "starred"}
    case InvalidGitlabVisibility(v) =>
      cfg.service == "gitlab" && v == cfg.gitlab.projectVisibility && v !in {"internal", "public", "private"}
    case InvalidGitlabMembership(m) =>
      cfg.service == "gitlab" && m == cfg.gitlab.projectMembershipType && !ValidGitlabProjectMembership(m)
    case InvalidForgejoRepoType(t) =>
      cfg.service == "forgejo" && t == cfg.forgejo.repoType && t !in {"user", "starred"}
    case MissingVariable(name) =>
      && Getenv(env, name) == ""
      && ((cfg.service == "github" && name == "GITHUB_TOKEN")
          || (cfg.service == "gitlab" && name == "GITLAB_TOKEN")
          || (cfg.service == "forgejo" && name == "FORGEJO_TOKEN")
          || (cfg.service == "bitbucket" && name == "BITBUCKET_USERNAME"))
    case MissingBitbucketSecret =>
      cfg.service == "bitbucket" && Getenv(env, "BITBUCKET_TOKEN") == "" && Getenv(env, "BITBUCKET_PASSWORD") == ""
  }

  /** No issue appears twice in a list. */
  predicate Distinct(issues: seq<Issue>) {
    forall j, k :: 0 <= j < k < |issues| ==> issues[j] != issues[k]
  }

  /** The issues of the service-specific field values: none exactly when
      the rules hold, and each reported exactly when its rule is broken. */
  function FieldIssues(cfg: FileConfig): (issues: seq<Issue>)
    ensures issues == [] <==> FieldsAcceptable(cfg)
    ensures InvalidGithubRepoType(cfg.github.repoType) in issues <==>
      cfg.service == "github" && cfg.github.repoType !in {"all", "owner", "member", "starred"}
    ensures InvalidGitlabVisibility(cfg.gitlab.projectVisibility) in issues <==>
      cfg.service == "gitlab" && cfg.gitlab.projectVisibility !in {"internal", "public", "private"}
    ensures InvalidGitlabMembership(cfg.gitlab.projectMembershipType) in issues <==>
      cfg.service == "gitlab" && !ValidGitlabProjectMembership(cfg.gitlab.projectMembershipType)
    ensures InvalidForgejoRepoType(cfg.forgejo.repoType) in issues <==>
      cfg.service == "forgejo" && cfg.forgejo.repoType !in {"user", "starred"}
    ensures forall k :: 0 <= k < |issues| ==> !issues[k].InvalidService? && !issues[k].MissingVariable? && !issues[k].MissingBitbucketSecret?
    ensures forall k :: 0 <= k < |issues| ==> Broken(issues[k], cfg, map[])
    ensures Distinct(issues)
  {
    match cfg.service
    case "github" =>
      if cfg.github.repoType in ["all", "owner", "member", "starred"] then []
      else [InvalidGithubRepoType(cfg.github.repoType)]
    case "gitlab" =>
      (if cfg.gitlab.projectVisibility in ["internal", "public", "private"] then []
       else [InvalidGitlabVisibility(cfg.gitlab.projectVisibility)])
      + (if ValidGitlabProjectMembership(cfg.gitlab.projectMembershipType) then []
         else [InvalidGitlabMembership(cfg.gitlab.projectMembershipType)])
    case "forgejo" =>
      if cfg.forgejo.repoType in ["user", "starred"] then []
      else [InvalidForgejoRepoType(cfg.forgejo.repoType)]
    case _ => []
  }

  /** The issues of the required environment variables: none exactly when
      the service's variables are set, and each reported exactly when its
      variable is missing. */
  function EnvIssues(cfg: FileConfig, env: map<string, string>): (issues: seq<Issue>)
    ensures issues == [] <==> EnvAcceptable(cfg, env)
    ensures MissingVariable("GITHUB_TOKEN") in issues <==> cfg.service == "github" && Getenv(env, "GITHUB_TOKEN") == ""
    ensures MissingVariable("GITLAB_TOKEN") in issues <==> cfg.service == "gitlab" && Getenv(env, "GITLAB_TOKEN") == ""
    ensures MissingVariable("FORGEJO_TOKEN") in issues <==> cfg.service == "forgejo" && Getenv(env, "FORGEJO_TOKEN") == ""
    ensures MissingVariable("BITBUCKET_USERNAME") in issues <==>
      cfg.service == "bitbucket" && Getenv(env, "BITBUCKET_USERNAME") == ""
    ensures MissingBitbucketSecret in issues <==>
      cfg.service == "bitbucket" && Getenv(env, "BITBUCKET_TOKEN") == "" && Getenv(env, "BITBUCKET_PASSWORD") == ""
    ensures forall k :: 0 <= k < |issues| ==> issues[k].MissingVariable? || issues[k].MissingBitbucketSecret?
    ensures forall k :: 0 <= k < |issues| ==> Broken(issues[k], cfg, env)
    ensures Distinct(issues)
  {
    match cfg.service
    case "github" => if Getenv(env, "GITHUB_TOKEN") == "" then [MissingVariable("GITHUB_TOKEN")] else []
    case "gitlab" => if Getenv(env, "GITLAB_TOKEN") == "" then [MissingVariable("GITLAB_TOKEN")] else []
    case "bitbucket" =>
      (if Getenv(env, "BITBUCKET_USERNAME") == "" then [MissingVariable("BITBUCKET_USERNAME")] else [])
      + (if Getenv(env, "BITBUCKET_TOKEN") == "" && Getenv(env, "BITBUCKET_PASSWORD") == "" then [MissingBitbucketSecret] else [])
    case "forgejo" => if Getenv(env, "FORGEJO_TOKEN") == "" then [MissingVariable("FORGEJO_TOKEN")] else []
    case _ => []
  }

  /** Every issue of a loaded file, in the order `validate` collects them:
      the service, then its field values, then its environment. The list is
      empty exactly when the file is acceptable, and an unknown service is
      the only issue reported for it. */
  function ConfigIssues(cfg: FileConfig, env: map<string, string>): (issues: seq<Issue>)
    ensures issues == [] <==> Acceptable(cfg, env)
    ensures cfg.service !in KnownServices ==> issues == [InvalidService(cfg.service)]
    ensures InvalidService(cfg.service) in issues <==> cfg.service !in KnownServices
    ensures forall k :: 0 <= k < |issues| ==> Broken(issues[k], cfg, env)
    ensures Distinct(issues)
  {
    assert KnownServices.Keys == {"github", "gitlab", "bitbucket", "forgejo"};
    (if cfg.service in KnownServices then [] else [InvalidService(cfg.service)])
    + FieldIssues(cfg) + EnvIssues(cfg, env)
  }

  /** Each issue is reported exactly when its rule is broken. */
  lemma IssueRules(cfg: FileConfig, env: map<string, string>)
    ensures var issues := ConfigIssues(cfg, env);
      && (InvalidGithubRepoType(cfg.github.repoType) in issues <==>
            cfg.service == "github" && cfg.github.repoType !in {"all", "owner", "member", "starred"})
      && (InvalidGitlabVisibility(cfg.gitlab.projectVisibility) in issues <==>
            cfg.service == "gitlab" && cfg.gitlab.projectVisibility !in {"internal", "public", "private"})
      && (InvalidGitlabMembership(cfg.gitlab.projectMembershipType) in issues <==>
            cfg.service == "gitlab" && !ValidGitlabProjectMembership(cfg.gitlab.projectMembershipType))
      && (InvalidForgejoRepoType(cfg.forgejo.repoType) in issues <==>
            cfg.service == "forgejo" && cfg.forgejo.repoType !in {"user", "starred"})
      && (MissingVariable("GITHUB_TOKEN") in issues <==> cfg.service == "github" && Getenv(env, "GITHUB_TOKEN") == "")
      && (MissingVariable("GITLAB_TOKEN") in issues <==> cfg.service == "gitlab" && Getenv(env, "GITLAB_TOKEN") == "")
      && (MissingVariable("FORGEJO_TOKEN") in issues <==> cfg.service == "forgejo" && Getenv(env, "FORGEJO_TOKEN") == "")
      && (MissingVariable("BITBUCKET_USERNAME") in issues <==>
            cfg.service == "bitbucket" && Getenv(env, "BITBUCKET_USERNAME") == "")
      && (MissingBitbucketSecret in issues <==>
            cfg.service == "bitbucket" && Getenv(env, "BITBUCKET_TOKEN") == "" && Getenv(env, "BITBUCKET_PASSWORD") == "")
  {
    var head := if cfg.service in KnownServices then [] else [InvalidService(cfg.service)];
    var fields := FieldIssues(cfg);
    var envs := EnvIssues(cfg, env);
    assert ConfigIssues(cfg, env) == head + fields + envs;
    assert forall x :: x in head + fields + envs <==> x in head || x in fields || x in envs;
  }

  /** The outcome of `validate`: valid, invalid with every issue found, or
      no file to judge. */
  datatype Verdict = Valid(path: string) | Invalid(issues: seq<Issue>) | LoadFailed(err: string)

  /** `handleValidateConfig`. */
  function HandleValidateConfig(configPath: string, configDir: Result<string>, files: Files, env: map<string, string>): (v: Verdict)
    ensures v.Valid? <==>
      LoadConfigFile(configPath, configDir, files).Ok? && Acceptable(LoadConfigFile(configPath, configDir, files).value, env)
    ensures v.Valid? ==> v.path == ResolveConfigPath(configPath, configDir).value
    ensures v.Invalid? ==>
      && LoadConfigFile(configPath, configDir, files).Ok?
      && v.issues == ConfigIssues(LoadConfigFile(configPath, configDir, files).value, env)
      && |v.issues| > 0
    ensures v.LoadFailed? <==> LoadConfigFile(configPath, configDir, files).Err?
  {
    match ResolveConfigPath(configPath, configDir)
    case Err(e) => LoadFailed(e)
    case Ok(path) =>
      match LoadConfigFile(configPath, configDir, files)
      case Err(e) => LoadFailed(e)
      case Ok(cfg) =>
        var issues := ConfigIssues(cfg, env);
        if |issues| > 0 then Invalid(issues) else Valid(path)
  }

  /** The default file is valid for GitHub exactly when `GITHUB_TOKEN` is
      set, which is the only issue it can have. */
  lemma DefaultFileValidation(env: map<string, string>)
    ensures ConfigIssues(DefaultFileConfig(), env)
      == (if Getenv(env, "GITHUB_TOKEN") == "" then [MissingVariable("GITHUB_TOKEN")] else [])
  {
  }

  /** `init` followed by `validate` on the same path, with `GITHUB_TOKEN`
      set, reports the written file valid (the file is read back as written). */
  lemma InitThenValidate(configPath: string, configDir: Result<string>, files: Files, env: map<string, string>)
    requires HandleInitConfig(configPath, configDir, files.Keys).Ok?
    requires Getenv(env, "GITHUB_TOKEN") != ""
    ensures var created := HandleInitConfig(configPath, configDir, files.Keys).value;
      HandleValidateConfig(configPath, configDir, files[created.path := Parsed(created.content)], env) == Valid(created.path)
  {
    var created := HandleInitConfig(configPath, configDir, files.Keys).value;
    DefaultFileValidation(env);
  }
}

=== FILE: forgejo.dfy ===
/** The Forgejo adapter (`getForgejoRepositories`,
    `paginateForgejoRepositories`): the repo-type selector picks the
    starred-repositories search or the own-repositories listing, and both
    run through one page loop that starts at page 1. */
module Forgejo {
  import opened Common
  import opened Paging

  /** The fields of a listed Forgejo repository that the adapter reads;
      `ownerUserName` is `Owner.UserName`. */
  datatype RemoteRepo = RemoteRepo(cloneURL: string, sshURL: string, name: string, ownerUserName: string, private: bool)

  /** One SDK call's result: the records and the response, whose `NextPage`
      is read only when the response is not nil; or an error. */
  datatype Reply = Reply(items: seq<RemoteRepo>, response: Option<int>) | Failed(err: string)

  const FirstPage := 1

  const StarredPrefix := "fetching starred repositories from forgejo: "
  const UserPrefix := "fetching user repositories from forgejo: "

  /** The page loop's reading of a reply: a nil response ends paging just
      as a next page of 0 does. */
  function AsResponse(reply: Reply): (r: Response<RemoteRepo>)
    ensures reply.Failed? <==> r.Failure?
    ensures reply.Reply? ==> r.items == reply.items
    ensures reply.Reply? ==> (r.nextPage == 0 <==> reply.response.None? || reply.response.value == 0)
    ensures reply.Reply? && r.nextPage != 0 ==> r.nextPage == reply.response.value
  {
    match reply
    case Failed(e) => Failure(e)
    case Reply(items, None) => Page(items, 0)
    case Reply(items, Some(next)) => Page(items, next)
  }

  function Pages(fetch: int -> Reply): int -> Response<RemoteRepo>
  {
    (page: int) => AsResponse(fetch(page))
  }

  /** Every record becomes a repository; there is no fork filter and the
      namespace is the owner's user name as given. */
  function Entry(pick: (string, string) -> string): RemoteRepo -> Option<Repository>
  {
    (r: RemoteRepo) => Some(Repository(pick(r.cloneURL, r.sshURL), r.name, r.ownerUserName, r.private))
  }

  /** `paginateForgejoRepositories`. */
  function Paginate(fetch: int -> Reply, pick: (string, string) -> string, fuel: nat): Listing<Repository>
  {
    Collect(Pages(fetch), FirstPage, fuel, Entry(pick))
  }

  /** `fmt.Errorf(prefix + "%v", err)` on a failed listing. */
  function Wrap(prefix: string, l: Listing<Repository>): (r: Listing<Repository>)
    ensures l.Aborted? ==> r == Aborted(prefix + l.err)
    ensures !l.Aborted? ==> r == l
  {
    if l.Aborted? then Aborted(prefix + l.err) else l
  }

  /** `SearchRepos` restricted to the repositories starred by one user. */
  function StarredPages(searchStarred: (int, int) -> Reply, userID: int): int -> Reply
  {
    (page: int) => searchStarred(userID, page)
  }

  /** `getForgejoRepositories`, given the id of the authenticated user. */
  function Repositories(
    repoType: string, userID: int,
    searchStarred: (int, int) -> Reply, listMyRepos: int -> Reply,
    pick: (string, string) -> string, fuel: nat): Listing<Repository>
  {
    if repoType == "starred" then Wrap(StarredPrefix, Paginate(StarredPages(searchStarred, userID), pick, fuel))
    else if repoType == "user" || repoType == "" then Wrap(UserPrefix, Paginate(listMyRepos, pick, fuel))
    else Aborted("unknown repo type: " + repoType)
  }

  /** The selector dispatch: `starred` searches the user's stars, `user` and
      the empty string list the user's own repositories, and any other value
      fails with "unknown repo type" without calling either endpoint. The
      starred search never reads the own-repositories endpoint, and the own
      listing reads neither the starred search nor the user's id. A failed
      listing's error is wrapped with the branch's message. */
  lemma Dispatch(
    repoType: string, userID: int,
    searchStarred: (int, int) -> Reply, listMyRepos: int -> Reply,
    otherSearch: (int, int) -> Reply, otherList: int -> Reply, otherUserID: int,
    pick: (string, string) -> string, fuel: nat)
    ensures repoType == "starred" ==>
      && Repositories(repoType, userID, searchStarred, listMyRepos, pick, fuel)
           == Wrap(StarredPrefix, Paginate(StarredPages(searchStarred, userID), pick, fuel))
      && Repositories(repoType, userID, searchStarred, listMyRepos, pick, fuel)
           == Repositories(repoType, userID, searchStarred, otherList, pick, fuel)
    ensures repoType in {"user", ""} ==>
      && Repositories(repoType, userID, searchStarred, listMyRepos, pick, fuel)
           == Wrap(UserPrefix, Paginate(listMyRepos, pick, fuel))
      && Repositories(repoType, userID, searchStarred, listMyRepos, pick, fuel)
           == Repositories(repoType, otherUserID, otherSearch, listMyRepos, pick, fuel)
    ensures repoType !in {"starred", "user", ""} ==>
      && Repositories(repoType, userID, searchStarred, listMyRepos, pick, fuel)
           == Aborted("unknown repo type: " + repoType)
      && Repositories(repoType, userID, searchStarred, listMyRepos, pick, fuel)
           == Repositories(repoType, userID, otherSearch, otherList, pick, fuel)
  {
  }

  /** What a successful page loop lists: every record of every requested
      page, in order and without any filter, with the owner's user name as
      namespace; paging began at page 1 and stopped at the first reply whose
      response was nil or announced page 0. */
  lemma {:induction false} PaginateListing(fetch: int -> Reply, pick: (string, string) -> string, fuel: nat)
    requires Paginate(fetch, pick, fuel).Listed?
    ensures var pages := Requested(Pages(fetch), FirstPage, fuel);
      var seen := Fetched(Pages(fetch), pages);
      var rs := Paginate(fetch, pick, fuel).repos;
      && pages[0] == 1
      && fetch(pages[|pages| - 1]).Reply?
      && (fetch(pages[|pages| - 1]).response.None? || fetch(pages[|pages| - 1]).response.value == 0)
      && |rs| == |seen|
      && forall i :: 0 <= i < |seen| ==>
           && rs[i].namespace == seen[i].ownerUserName
           && rs[i].name == seen[i].name
           && rs[i].private == seen[i].private
           && rs[i].cloneURL == pick(seen[i].cloneURL, seen[i].sshURL)
  {
    CollectOutcome(Pages(fetch), FirstPage, fuel, Entry(pick));
    var pages := Requested(Pages(fetch), FirstPage, fuel);
    assert AsResponse(fetch(pages[|pages| - 1])).nextPage == 0;
    FilterMapAll(Fetched(Pages(fetch), pages), Entry(pick));
  }

  /** A failing request aborts the listing with the error and no partial
      result, whichever branch issued it. */
  lemma {:induction false} PaginateAborts(fetch: int -> Reply, pick: (string, string) -> string, pages: seq<int>, fuel: nat)
    requires Linked(Pages(fetch), FirstPage, pages) && |pages| <= fuel
    requires fetch(pages[|pages| - 1]).Failed?
    ensures Paginate(fetch, pick, fuel) == Aborted(fetch(pages[|pages| - 1]).err)
    ensures Wrap(UserPrefix, Paginate(fetch, pick, fuel)) == Aborted(UserPrefix + fetch(pages[|pages| - 1]).err)
  {
    var last := pages[|pages| - 1];
    assert Pages(fetch)(last) == AsResponse(fetch(last));
    assert AsResponse(fetch(last)) == Failure(fetch(last).err);
    CollectAlongWalk(Pages(fetch), FirstPage, pages, fuel, Entry(pick));
  }

  /** A failing request aborts `getForgejoRepositories` in either branch:
      the error carries the starred message when the selector is `starred`
      and the user-repositories message when it is `user` or empty. */
  lemma {:induction false} RepositoriesAborts(
    repoType: string, userID: int,
    searchStarred: (int, int) -> Reply, listMyRepos: int -> Reply,
    pick: (string, string) -> string, pages: seq<int>, fuel: nat)
    requires repoType in {"starred", "user", ""}
    requires repoType == "starred" ==>
      && Linked(Pages(StarredPages(searchStarred, userID)), FirstPage, pages) && |pages| <= fuel
      && searchStarred(userID, pages[|pages| - 1]).Failed?
    requires repoType != "starred" ==>
      && Linked(Pages(listMyRepos), FirstPage, pages) && |pages| <= fuel
      && listMyRepos(pages[|pages| - 1]).Failed?
    ensures repoType == "starred" ==>
      Repositories(repoType, userID, searchStarred, listMyRepos, pick, fuel)
        == Aborted(StarredPrefix + searchStarred(userID, pages[|pages| - 1]).err)
    ensures repoType != "starred" ==>
      Repositories(repoType, userID, searchStarred, listMyRepos, pick, fuel)
        == Aborted(UserPrefix + listMyRepos(pages[|pages| - 1]).err)
  {
    if repoType == "starred" {
      var fetch := StarredPages(searchStarred, userID);
      assert fetch(pages[|pages| - 1]) == searchStarred(userID, pages[|pages| - 1]);
      PaginateAborts(fetch, pick, pages, fuel);
    } else {
      PaginateAborts(listMyRepos, pick, pages, fuel);
    }
  }
}

=== FILE: github.dfy ===
/** The GitHub adapter (`getGithubRepositories`, `getGithubStarredRepositories`):
    the user's repositories of one `Type`, filtered by fork flag and namespace
    whitelist, or the user's starred repositories, filtered by fork flag only. */
module Github {
  import opened Common
  import opened Paging

  /** The fields of a listed GitHub repository that the adapter reads. The
      adapter dereferences `Fork`, `FullName`, `Name` and `Private`
      unconditionally, so they are plain values here; it nil-checks
      `CloneURL` and `SSHURL`, so those are optional. */
  datatype RemoteRepo = RemoteRepo(
    fork: bool,
    fullName: string,
    name: string,
    private: bool,
    cloneURL: Option<string>,
    sshURL: Option<string>)

  /** An entry of the starred listing, which wraps the repository. */
  datatype Starred = Starred(repository: RemoteRepo)

  /** The page number of the first request: the zero value of `ListOptions.Page`. */
  const FirstPage := 0

  /** The repository record built from a listed repository. */
  function Normalise(repo: RemoteRepo, pick: (string, string) -> string): Repository
  {
    Repository(pick(OrEmpty(repo.cloneURL), OrEmpty(repo.sshURL)), repo.name, NamespaceOf(repo.fullName), repo.private)
  }

  /** Whether the own-repositories loop keeps a repository rather than `continue`. */
  predicate OwnedAdmits(whitelist: seq<string>, ignoreFork: bool, repo: RemoteRepo) {
    && !(repo.fork && ignoreFork)
    && (|whitelist| == 0 || NamespaceOf(repo.fullName) in whitelist)
  }

  function OwnedEntry(whitelist: seq<string>, ignoreFork: bool, pick: (string, string) -> string): RemoteRepo -> Option<Repository>
  {
    (repo: RemoteRepo) => if OwnedAdmits(whitelist, ignoreFork, repo) then Some(Normalise(repo, pick)) else None
  }

  function StarredEntry(ignoreFork: bool, pick: (string, string) -> string): Starred -> Option<Repository>
  {
    (star: Starred) => if star.repository.fork && ignoreFork then None else Some(Normalise(star.repository, pick))
  }

  /** `client.Repositories.List` with `Type: repoType`, as a function of the page. */
  function OwnedPages(listOwned: (string, int) -> Response<RemoteRepo>, repoType: string): int -> Response<RemoteRepo>
  {
    (page: int) => listOwned(repoType, page)
  }

  /** `getGithubStarredRepositories`. */
  function StarredRepositories(
    ignoreFork: bool, pick: (string, string) -> string,
    listStarred: int -> Response<Starred>, fuel: nat): Listing<Repository>
  {
    Collect(listStarred, FirstPage, fuel, StarredEntry(ignoreFork, pick))
  }

  /** `getGithubRepositories`. */
  function Repositories(
    repoType: string, whitelist: seq<string>, ignoreFork: bool, pick: (string, string) -> string,
    listOwned: (string, int) -> Response<RemoteRepo>, listStarred: int -> Response<Starred>,
    fuel: nat): Listing<Repository>
  {
    if repoType == "starred" then StarredRepositories(ignoreFork, pick, listStarred, fuel)
    else Collect(OwnedPages(listOwned, repoType), FirstPage, fuel, OwnedEntry(whitelist, ignoreFork, pick))
  }

  /** Every record turns into a repository named as listed, with the same
      visibility, whose namespace is the part of the full name before the
      first `/`, and whose clone URL is chosen from the two URLs with a
      missing one passed as the empty string. */
  lemma NormaliseFields(repo: RemoteRepo, pick: (string, string) -> string)
    ensures Normalise(repo, pick).name == repo.name
    ensures Normalise(repo, pick).private == repo.private
    ensures IsFirstSegment(Normalise(repo, pick).namespace, repo.fullName)
    ensures repo.cloneURL.None? ==> Normalise(repo, pick).cloneURL == pick("", OrEmpty(repo.sshURL))
    ensures repo.sshURL.None? ==> Normalise(repo, pick).cloneURL == pick(OrEmpty(repo.cloneURL), "")
    ensures repo.cloneURL.Some? && repo.sshURL.Some? ==>
      Normalise(repo, pick).cloneURL == pick(repo.cloneURL.value, repo.sshURL.value)
  {
  }

  /** The `starred` selector lists the stars and nothing else: neither the
      `Type` option, the own-repositories endpoint nor the whitelist matters. */
  lemma StarredIgnoresTypeAndWhitelist(
    whitelist: seq<string>, otherWhitelist: seq<string>, ignoreFork: bool, pick: (string, string) -> string,
    listOwned: (string, int) -> Response<RemoteRepo>, otherListOwned: (string, int) -> Response<RemoteRepo>,
    listStarred: int -> Response<Starred>, fuel: nat)
    ensures Repositories("starred", whitelist, ignoreFork, pick, listOwned, listStarred, fuel)
         == StarredRepositories(ignoreFork, pick, listStarred, fuel)
    ensures Repositories("starred", whitelist, ignoreFork, pick, listOwned, listStarred, fuel)
         == Repositories("starred", otherWhitelist, ignoreFork, pick, otherListOwned, listStarred, fuel)
  {
  }

  /** What a successful own-repositories listing contains: exactly the
      records, from the pages it requested, that are not ignored forks and
      whose namespace passes a non-empty whitelist, each normalised. */
  lemma {:induction false} OwnedListing(
    repoType: string, whitelist: seq<string>, ignoreFork: bool, pick: (string, string) -> string,
    listOwned: (string, int) -> Response<RemoteRepo>, listStarred: int -> Response<Starred>, fuel: nat)
    requires repoType != "starred"
    requires Repositories(repoType, whitelist, ignoreFork, pick, listOwned, listStarred, fuel).Listed?
    ensures var rs := Repositories(repoType, whitelist, ignoreFork, pick, listOwned, listStarred, fuel).repos;
      var seen := Fetched(OwnedPages(listOwned, repoType), Requested(OwnedPages(listOwned, repoType), FirstPage, fuel));
      && (forall r :: r in rs ==> exists x :: x in seen && OwnedAdmits(whitelist, ignoreFork, x) && r == Normalise(x, pick))
      && (forall x :: x in seen && OwnedAdmits(whitelist, ignoreFork, x) ==> Normalise(x, pick) in rs)
  {
    var fetch := OwnedPages(listOwned, repoType);
    var keep := OwnedEntry(whitelist, ignoreFork, pick);
    ListedExactly(fetch, FirstPage, fuel, keep);
  }

  /** With `ignoreFork`, no listed repository comes from a fork, and with a
      non-empty whitelist every listed namespace is on it. */
  lemma {:induction false} OwnedListingFilters(
    repoType: string, whitelist: seq<string>, ignoreFork: bool, pick: (string, string) -> string,
    listOwned: (string, int) -> Response<RemoteRepo>, listStarred: int -> Response<Starred>, fuel: nat)
    requires repoType != "starred"
    requires Repositories(repoType, whitelist, ignoreFork, pick, listOwned, listStarred, fuel).Listed?
    ensures var rs := Repositories(repoType, whitelist, ignoreFork, pick, listOwned, listStarred, fuel).repos;
      var seen := Fetched(OwnedPages(listOwned, repoType), Requested(OwnedPages(listOwned, repoType), FirstPage, fuel));
      && (ignoreFork ==> forall r :: r in rs ==> exists x :: x in seen && !x.fork && r == Normalise(x, pick))
      && (|whitelist| > 0 ==> forall r :: r in rs ==> r.namespace in whitelist)
  {
    OwnedListing(repoType, whitelist, ignoreFork, pick, listOwned, listStarred, fuel);
  }

  /** What a successful starred listing contains: every starred repository
      from the requested pages except ignored forks, each normalised. */
  lemma {:induction false} StarredListing(
    ignoreFork: bool, pick: (string, string) -> string, listStarred: int -> Response<Starred>, fuel: nat)
    requires StarredRepositories(ignoreFork, pick, listStarred, fuel).Listed?
    ensures var rs := StarredRepositories(ignoreFork, pick, listStarred, fuel).repos;
      var seen := Fetched(listStarred, Requested(listStarred, FirstPage, fuel));
      && (forall r :: r in rs ==> exists s :: s in seen && !(s.repository.fork && ignoreFork) && r == Normalise(s.repository, pick))
      && (forall s :: s in seen && !(s.repository.fork && ignoreFork) ==> Normalise(s.repository, pick) in rs)
  {
    ListedExactly(listStarred, FirstPage, fuel, StarredEntry(ignoreFork, pick));
  }

  /** Paging: the first request asks for page 0, each later one for the page
      the previous response announced, the loop stops at the first response
      announcing page 0, and a failing request aborts the whole listing
      with its error. */
  lemma {:induction false} OwnedPaging(
    repoType: string, whitelist: seq<string>, ignoreFork: bool, pick: (string, string) -> string,
    listOwned: (string, int) -> Response<RemoteRepo>, listStarred: int -> Response<Starred>,
    pages: seq<int>, fuel: nat)
    requires repoType != "starred"
    requires Linked(OwnedPages(listOwned, repoType), FirstPage, pages) && |pages| <= fuel
    ensures listOwned(repoType, pages[|pages| - 1]).Failure? ==>
      Repositories(repoType, whitelist, ignoreFork, pick, listOwned, listStarred, fuel)
        == Aborted(listOwned(repoType, pages[|pages| - 1]).err)
    ensures Complete(OwnedPages(listOwned, repoType), FirstPage, pages) ==>
      Repositories(repoType, whitelist, ignoreFork, pick, listOwned, listStarred, fuel)
        == Listed(FilterMap(Fetched(OwnedPages(listOwned, repoType), pages), OwnedEntry(whitelist, ignoreFork, pick)))
  {
    CollectAlongWalk(OwnedPages(listOwned, repoType), FirstPage, pages, fuel, OwnedEntry(whitelist, ignoreFork, pick));
  }
}

=== FILE: gitlab.dfy ===
/** The GitLab adapter (`getGitlabRepositories`): the membership and
    visibility selectors become project-listing options, and every listed
    project becomes a repository unless it is an ignored fork. */
module Gitlab {
  import opened Common
  import opened Paging

  /** The options of `ListProjectsOptions` the adapter sets. A flag the
      adapter points at `true` is `true` here; one it leaves nil is `false`.
      `visibility` is nil (`None`) or a `VisibilityValue`, whose zero value
      is the empty string. */
  datatype ProjectQuery = ProjectQuery(owned: bool, membership: bool, starred: bool, visibility: Option<string>)

  /** The fields of a listed GitLab project that the adapter reads;
      `forkedFromProject` is the id of the parent project, nil when the
      project is not a fork. */
  datatype Project = Project(
    forkedFromProject: Option<int>,
    pathWithNamespace: string,
    webURL: string,
    sshURLToRepo: string,
    name: string,
    visibility: string)

  const FirstPage := 0

  /** The membership switch: `owner`, `member` and `starred` each set their
      own flag, `all` sets all three, and anything else sets none. */
  function MembershipFlags(membershipType: string): (flags: (bool, bool, bool))
    ensures flags.0 <==> membershipType in {"owner", "all"}
    ensures flags.1 <==> membershipType in {"member", "all"}
    ensures flags.2 <==> membershipType in {"starred", "all"}
  {
    match membershipType
    case "owner" => (true, false, false)
    case "member" => (false, true, false)
    case "starred" => (false, false, true)
    case "all" => (true, true, true)
    case _ => (false, false, false)
  }

  /** The visibility filter: unset for `all`; otherwise the matching value,
      with `default` meaning internal and any unknown selector leaving the
      zero value. */
  function VisibilityFilter(selector: string): (v: Option<string>)
    ensures v.None? <==> selector == "all"
    ensures selector in {"public", "private", "internal"} ==> v == Some(selector)
    ensures selector == "default" ==> v == Some("internal")
    ensures selector !in {"all", "public", "private", "internal", "default"} ==> v == Some("")
  {
    if selector == "all" then None
    else match selector
      case "public" => Some("public")
      case "private" => Some("private")
      case "internal" => Some("internal")
      case "default" => Some("internal")
      case _ => Some("")
  }

  function Query(visibility: string, membershipType: string): ProjectQuery
  {
    var flags := MembershipFlags(membershipType);
    ProjectQuery(flags.0, flags.1, flags.2, VisibilityFilter(visibility))
  }

  function Normalise(p: Project, pick: (string, string) -> string): Repository
  {
    Repository(pick(p.webURL, p.sshURLToRepo), p.name, NamespaceOf(p.pathWithNamespace), p.visibility == "private")
  }

  function Entry(ignoreFork: bool, pick: (string, string) -> string): Project -> Option<Repository>
  {
    (p: Project) => if p.forkedFromProject.Some? && ignoreFork then None else Some(Normalise(p, pick))
  }

  /** `client.Projects.ListProjects` with the given options, as a function of the page. */
  function ProjectPages(listProjects: (ProjectQuery, int) -> Response<Project>, query: ProjectQuery): int -> Response<Project>
  {
    (page: int) => listProjects(query, page)
  }

  /** `getGitlabRepositories`. */
  function Repositories(
    visibility: string, membershipType: string, ignoreFork: bool, pick: (string, string) -> string,
    listProjects: (ProjectQuery, int) -> Response<Project>, fuel: nat): Listing<Repository>
  {
    Collect(ProjectPages(listProjects, Query(visibility, membershipType)), FirstPage, fuel, Entry(ignoreFork, pick))
  }

  /** Each selector reaches the query unchanged in meaning: the three
      membership flags and the visibility filter are exactly those above. */
  lemma QueryFromSelectors(visibility: string, membershipType: string)
    ensures Query(visibility, membershipType).owned <==> membershipType in {"owner", "all"}
    ensures Query(visibility, membershipType).membership <==> membershipType in {"member", "all"}
    ensures Query(visibility, membershipType).starred <==> membershipType in {"starred", "all"}
    ensures Query(visibility, membershipType).visibility.None? <==> visibility == "all"
    ensures visibility in {"internal", "default"} ==> Query(visibility, membershipType).visibility == Some("internal")
    ensures Query(visibility, membershipType).visibility == VisibilityFilter(visibility)
  {
  }

  /** What a successful listing contains: exactly the projects from the
      requested pages that are not ignored forks, each with the namespace
      before the first `/` of its path, its web and SSH URLs offered to the
      chooser, and marked private exactly when its visibility is `private`
      (so internal projects are not private). */
  lemma {:induction false} ProjectListing(
    visibility: string, membershipType: string, ignoreFork: bool, pick: (string, string) -> string,
    listProjects: (ProjectQuery, int) -> Response<Project>, fuel: nat)
    requires Repositories(visibility, membershipType, ignoreFork, pick, listProjects, fuel).Listed?
    ensures var rs := Repositories(visibility, membershipType, ignoreFork, pick, listProjects, fuel).repos;
      var fetch := ProjectPages(listProjects, Query(visibility, membershipType));
      var seen := Fetched(fetch, Requested(fetch, FirstPage, fuel));
      && (forall r :: r in rs ==> exists p ::
            && p in seen
            && !(ignoreFork && p.forkedFromProject.Some?)
            && r.name == p.name
            && IsFirstSegment(r.namespace, p.pathWithNamespace)
            && r.cloneURL == pick(p.webURL, p.sshURLToRepo)
            && (r.private <==> p.visibility == "private"))
      && (forall p :: p in seen && !(ignoreFork && p.forkedFromProject.Some?) ==> Normalise(p, pick) in rs)
  {
    var fetch := ProjectPages(listProjects, Query(visibility, membershipType));
    ListedExactly(fetch, FirstPage, fuel, Entry(ignoreFork, pick));
  }

  /** Paging: pages are requested from 0 along the announced next pages,
      the loop stops at the first response announcing page 0, and a failing
      request aborts the listing with its error and no partial result. */
  lemma {:induction false} ProjectPaging(
    visibility: string, membershipType: string, ignoreFork: bool, pick: (string, string) -> string,
    listProjects: (ProjectQuery, int) -> Response<Project>, pages: seq<int>, fuel: nat)
    requires Linked(ProjectPages(listProjects, Query(visibility, membershipType)), FirstPage, pages)
    requires |pages| <= fuel
    ensures var fetch := ProjectPages(listProjects, Query(visibility, membershipType));
      && (fetch(pages[|pages| - 1]).Failure? ==>
            Repositories(visibility, membershipType, ignoreFork, pick, listProjects, fuel)
              == Aborted(fetch(pages[|pages| - 1]).err))
      && (Complete(fetch, FirstPage, pages) ==>
            Repositories(visibility, membershipType, ignoreFork, pick, listProjects, fuel)
              == Listed(FilterMap(Fetched(fetch, pages), Entry(ignoreFork, pick))))
  {
    CollectAlongWalk(ProjectPages(listProjects, Query(visibility, membershipType)), FirstPage, pages, fuel, Entry(ignoreFork, pick));
  }
}

=== FILE: main.dfy ===
/** The program entry (`main.go`): the `init` and `validate` subcommands
    with their `--config` flag, and otherwise a backup run, which builds and
    validates a run configuration and then picks exactly one operation.

    The host is a `World` value: the per-user configuration directory, the
    files that exist, and the environment. Parsing the command line (the
    `flag` package for the subcommands, the CLI library otherwise) and
    `setupBackupDir` are parameters. */
module Program {
  import opened Common
  import opened Settings
  import opened ConfigFile
  import opened Options

  /** What `parseSubcommandFlags` makes of a subcommand's arguments: the
      `--config` value (empty when absent), a request for help (usage is
      printed and the process exits with status 0), or a usage error (exit
      status 2). */
  datatype SubcommandArgs = ConfigPath(path: string) | HelpRequested | UsageError(message: string)

  /** The host the program runs on. */
  datatype World = World(configDir: Result<string>, files: Files, env: map<string, string>)

  /** How a run of the program ends. */
  datatype Outcome =
    | Initialised(created: Created)
    | ConfigValid(path: string)
      /** the issues are listed, then the process exits with status 1 */
    | ConfigInvalid(issues: seq<Issue>)
    | ShowedUsage
    | UsageFailure(message: string)
      /** `log.Fatal`: the message is logged and the process exits with status 1 */
    | Fatal(message: string)
    | ListMigrations(config: AppConfig)
    | CreateMigration(config: AppConfig)
    | CloneRepositories(config: AppConfig)
  {
    predicate IsOperation() {
      ListMigrations? || CreateMigration? || CloneRepositories?
    }
  }

  /** The operation a valid run configuration selects: listing migrations
      wins over creating one, which wins over cloning. */
  function Operation(c: AppConfig): (r: Outcome)
    ensures r.IsOperation() && r.config == c
    ensures r.ListMigrations? <==> c.migration.list
    ensures r.CreateMigration? <==> !c.migration.list && c.migration.create
    ensures r.CloneRepositories? <==> !c.migration.list && !c.migration.create
  {
    if c.migration.list then ListMigrations(c)
    else if c.migration.create then CreateMigration(c)
    else CloneRepositories(c)
  }

  /** The parsers of the command line, which belong to libraries. */
  datatype Parsers = Parsers(subcommand: seq<string> -> SubcommandArgs, backup: seq<string> -> Result<Cli>)

  function Init(args: seq<string>, world: World, parse: seq<string> -> SubcommandArgs): Outcome
  {
    match parse(args)
    case HelpRequested => ShowedUsage
    case UsageError(m) => UsageFailure(m)
    case ConfigPath(p) =>
      match HandleInitConfig(p, world.configDir, world.files.Keys)
      case Err(e) => Fatal(e)
      case Ok(created) => Initialised(created)
  }

  function Validate(args: seq<string>, world: World, parse: seq<string> -> SubcommandArgs): Outcome
  {
    match parse(args)
    case HelpRequested => ShowedUsage
    case UsageError(m) => UsageFailure(m)
    case ConfigPath(p) =>
      match HandleValidateConfig(p, world.configDir, world.files, world.env)
      case Valid(path) => ConfigValid(path)
      case Invalid(issues) => ConfigInvalid(issues)
      case LoadFailed(e) => Fatal(e)
  }

  /** A backup run: parse the command line, build the run configuration,
      validate it, and pick the operation. */
  function Backup(
    args: seq<string>, world: World,
    parse: seq<string> -> Result<Cli>, setup: (string, string, string) -> string): Outcome
  {
    match parse(args)
    case Err(e) => Fatal(e)
    case Ok(cli) =>
      match BuildConfig(cli, world.configDir, world.files, setup)
      case Err(e) => Fatal(e)
      case Ok(c) =>
        match ValidateConfig(c)
        case Some(m) => Fatal(m)
        case None => Operation(c)
  }

  /** `main`, given the arguments after the program name. */
  function Run(
    args: seq<string>, world: World,
    parsers: Parsers, setup: (string, string, string) -> string): (r: Outcome)
    ensures |args| > 0 && args[0] in {"init", "validate"} ==> !r.IsOperation()
    ensures r.IsOperation() ==> ValidateConfig(r.config).None? && r.config.service in KnownServices
  {
    if |args| > 0 && args[0] == "init" then Init(args[1..], world, parsers.subcommand)
    else if |args| > 0 && args[0] == "validate" then Validate(args[1..], world, parsers.subcommand)
    else Backup(args, world, parsers.backup, setup)
  }

  /** The subcommands are handled before the backup command line is looked
      at: neither the backup command-line parser nor the backup directory
      set-up affects them, they never start an operation, and `init` only
      initialises while `validate` only validates. */
  lemma SubcommandsFirst(
    args: seq<string>, world: World,
    parsers: Parsers, otherBackup: seq<string> -> Result<Cli>,
    setup: (string, string, string) -> string, otherSetup: (string, string, string) -> string)
    requires |args| > 0 && args[0] in {"init", "validate"}
    ensures Run(args, world, parsers, setup) == Run(args, world, parsers.(backup := otherBackup), otherSetup)
    ensures !Run(args, world, parsers, setup).IsOperation()
    ensures args[0] == "init" ==>
      !Run(args, world, parsers, setup).ConfigValid? && !Run(args, world, parsers, setup).ConfigInvalid?
    ensures args[0] == "validate" ==> !Run(args, world, parsers, setup).Initialised?
  {
  }

  /** An operation starts only from a command line that parsed, a run
      configuration that was built from it and passed validation, and
      only the operation that configuration selects. */
  lemma {:induction false} OperationsAreValidated(
    args: seq<string>, world: World,
    parsers: Parsers, setup: (string, string, string) -> string)
    requires Run(args, world, parsers, setup).IsOperation()
    ensures !(|args| > 0 && args[0] in {"init", "validate"})
    ensures var c := Run(args, world, parsers, setup).config;
      && parsers.backup(args).Ok?
      && BuildConfig(parsers.backup(args).value, world.configDir, world.files, setup) == Ok(c)
      && ValidateConfig(c).None?
      && Run(args, world, parsers, setup) == Operation(c)
  {
    if |args| > 0 && args[0] in {"init", "validate"} {
      SubcommandsFirst(args, world, parsers, parsers.backup, setup, setup);
    }
  }

  /** `init` followed by `validate` with the same arguments: the file the
      first writes is the file the second accepts, as long as
      `GITHUB_TOKEN` is set. */
  lemma {:induction false} InitThenValidateRun(
    rest: seq<string>, world: World,
    parsers: Parsers, setup: (string, string, string) -> string)
    requires Run(["init"] + rest, world, parsers, setup).Initialised?
    requires Getenv(world.env, "GITHUB_TOKEN") != ""
    ensures var created := Run(["init"] + rest, world, parsers, setup).created;
      Run(["validate"] + rest, world.(files := world.files[created.path := Parsed(created.content)]), parsers, setup)
        == ConfigValid(created.path)
  {
    assert (["init"] + rest)[1..] == rest;
    assert (["validate"] + rest)[1..] == rest;
    var p := parsers.subcommand(rest).path;
    InitThenValidate(p, world.configDir, world.files, world.env);
  }
}

=== FILE: options.dfy ===
/** The command-line flags of a backup run (`appFlags`), how a run
    configuration is built from them and an optional configuration file
    (`buildConfig`), and the checks a run configuration must pass
    (`validateConfig`). */
module Options {
  import opened Common
  import opened Settings
  import opened ConfigFile

  /** The value of a flag of one of the three kinds the tool declares. */
  datatype FlagValue = StringValue(s: string) | BoolValue(b: bool) | IntValue(i: int)

  /** The GitHub user-migration switches' flags. */
  datatype MigrationSwitch =
    | CreateUserMigration | CreateUserMigrationRetry | CreateUserMigrationRetryMax
    | ListUserMigrations | WaitForUserMigration

  /** Every flag of a backup run: the configuration path, one flag per file
      setting, and the migration switches. */
  datatype Flag = ConfigFlag | SettingFlag(field: Field) | MigrationFlag(switch: MigrationSwitch)

  /** The name a flag is given on the command line. */
  function Name(flag: Flag): string
  {
    match flag
    case ConfigFlag => "config"
    case SettingFlag(f) => (
      match f
      case Service => "service"
      case GitHostURL => "githost.url"
      case BackupDir => "backupdir"
      case IgnorePrivate => "ignore-private"
      case IgnoreFork => "ignore-fork"
      case UseHTTPSClone => "use-https-clone"
      case Bare => "bare"
      case GithubRepoType => "github.repoType"
      case GithubNamespaceWhitelist => "github.namespaceWhitelist"
      case GitlabProjectVisibility => "gitlab.projectVisibility"
      case GitlabProjectMembershipType => "gitlab.projectMembershipType"
      case ForgejoRepoType => "forgejo.repoType")
    case MigrationFlag(m) => (
      match m
      case CreateUserMigration => "github.createUserMigration"
      case CreateUserMigrationRetry => "github.createUserMigrationRetry"
      case CreateUserMigrationRetryMax => "github.createUserMigrationRetryMax"
      case ListUserMigrations => "github.listUserMigrations"
      case WaitForUserMigration => "github.waitForUserMigration")
  }

  /** The flag a name on the command line refers to, if any. */
  function Named(name: string): Option<Flag>
  {
    match name
    case "config" => Some(ConfigFlag)
    case "service" => Some(SettingFlag(Service))
    case "githost.url" => Some(SettingFlag(GitHostURL))
    case "backupdir" => Some(SettingFlag(BackupDir))
    case "ignore-private" => Some(SettingFlag(IgnorePrivate))
    case "ignore-fork" => Some(SettingFlag(IgnoreFork))
    case "use-https-clone" => Some(SettingFlag(UseHTTPSClone))
    case "bare" => Some(SettingFlag(Bare))
    case "github.repoType" => Some(SettingFlag(GithubRepoType))
    case "github.namespaceWhitelist" => Some(SettingFlag(GithubNamespaceWhitelist))
    case "gitlab.projectVisibility" => Some(SettingFlag(GitlabProjectVisibility))
    case "gitlab.projectMembershipType" => Some(SettingFlag(GitlabProjectMembershipType))
    case "forgejo.repoType" => Some(SettingFlag(ForgejoRepoType))
    case "github.createUserMigration" => Some(MigrationFlag(CreateUserMigration))
    case "github.createUserMigrationRetry" => Some(MigrationFlag(CreateUserMigrationRetry))
    case "github.createUserMigrationRetryMax" => Some(MigrationFlag(CreateUserMigrationRetryMax))
    case "github.listUserMigrations" => Some(MigrationFlag(ListUserMigrations))
    case "github.waitForUserMigration" => Some(MigrationFlag(WaitForUserMigration))
    case _ => None
  }

  /** Every flag is found by its name, so no two flags share a name. */
  lemma NamesIdentify(flag: Flag, other: Flag)
    ensures Named(Name(flag)) == Some(flag)
    ensures flag != other ==> Name(flag) != Name(other)
  {
    NamedName(flag);
    NamedName(other);
  }

  lemma NamedName(flag: Flag)
    ensures Named(Name(flag)) == Some(flag)
  {
    match flag
    case ConfigFlag =>
    case SettingFlag(f) => NamedSetting(f);
    case MigrationFlag(m) => NamedMigration(m);
  }

  lemma NamedSetting(f: Field)
    ensures Named(Name(SettingFlag(f))) == Some(SettingFlag(f))
  {
    match f
    case Service =>
    case GitHostURL =>
    case BackupDir =>
    case IgnorePrivate =>
    case IgnoreFork =>
    case UseHTTPSClone =>
    case Bare =>
    case GithubRepoType =>
    case GithubNamespaceWhitelist =>
    case GitlabProjectVisibility =>
    case GitlabProjectMembershipType =>
    case ForgejoRepoType =>
  }

  lemma NamedMigration(m: MigrationSwitch)
    ensures Named(Name(MigrationFlag(m))) == Some(MigrationFlag(m))
  {
    match m
    case CreateUserMigration =>
    case CreateUserMigrationRetry =>
    case CreateUserMigrationRetryMax =>
    case ListUserMigrations =>
    case WaitForUserMigration =>
  }

  /** The kind of value a flag takes. */
  predicate IsSwitch(flag: Flag) {
    || (flag.SettingFlag? && flag.field in {IgnorePrivate, IgnoreFork, UseHTTPSClone, Bare})
    || (flag.MigrationFlag? && flag.switch != CreateUserMigrationRetryMax)
  }

  /** The default value of each flag: the declared `Value`, or Go's zero
      value of the flag's kind where none is declared. */
  function Default(flag: Flag): (v: FlagValue)
    ensures v.BoolValue? <==> IsSwitch(flag)
    ensures v.IntValue? <==> flag == MigrationFlag(CreateUserMigrationRetryMax)
  {
    match flag
    case ConfigFlag => StringValue("")
    case SettingFlag(f) => (
      match f
      case IgnorePrivate => BoolValue(false)
      case IgnoreFork => BoolValue(false)
      case UseHTTPSClone => BoolValue(false)
      case Bare => BoolValue(false)
      case GithubRepoType => StringValue("all")
      case GitlabProjectVisibility => StringValue("internal")
      case GitlabProjectMembershipType => StringValue("all")
      case ForgejoRepoType => StringValue("user")
      case _ => StringValue(""))
    case MigrationFlag(m) => (
      match m
      case CreateUserMigration => BoolValue(false)
      case CreateUserMigrationRetry => BoolValue(true)
      case CreateUserMigrationRetryMax => IntValue(DefaultMaxUserMigrationRetry)
      case ListUserMigrations => BoolValue(false)
      case WaitForUserMigration => BoolValue(true))
  }

  /** A parsed command line: the flags given explicitly, with their values. */
  datatype Cli = Cli(given: map<Flag, FlagValue>)

  /** `cCtx.IsSet`. */
  predicate IsSet(cli: Cli, flag: Flag) {
    flag in cli.given
  }

  /** `cCtx.String`: the given value, else the default; "" for a flag of
      another kind. */
  function StringFlag(cli: Cli, flag: Flag): (s: string)
    ensures IsSet(cli, flag) && cli.given[flag].StringValue? ==> s == cli.given[flag].s
    ensures !IsSet(cli, flag) && Default(flag).StringValue? ==> s == Default(flag).s
  {
    var v := if IsSet(cli, flag) then cli.given[flag] else Default(flag);
    if v.StringValue? then v.s else ""
  }

  /** `cCtx.Bool`: the given value, else the default; false for a flag of
      another kind. */
  function BoolFlag(cli: Cli, flag: Flag): (b: bool)
    ensures IsSet(cli, flag) && cli.given[flag].BoolValue? ==> b == cli.given[flag].b
    ensures !IsSet(cli, flag) && Default(flag).BoolValue? ==> b == Default(flag).b
  {
    var v := if IsSet(cli, flag) then cli.given[flag] else Default(flag);
    if v.BoolValue? then v.b else false
  }

  /** `cCtx.Int`: the given value, else the default; 0 for a flag of
      another kind. */
  function IntFlag(cli: Cli, flag: Flag): (i: int)
    ensures IsSet(cli, flag) && cli.given[flag].IntValue? ==> i == cli.given[flag].i
    ensures !IsSet(cli, flag) && Default(flag).IntValue? ==> i == Default(flag).i
  {
    var v := if IsSet(cli, flag) then cli.given[flag] else Default(flag);
    if v.IntValue? then v.i else 0
  }

  /** The whitelist flag: a comma-separated list, with the empty string
      meaning no whitelist. */
  function Whitelist(ns: string): (names: seq<string>)
    ensures ns == "" <==> names == []
    ensures ns != "" ==> Join(names, ',') == ns
    ensures forall i :: 0 <= i < |names| ==> ',' !in names[i]
  {
    if |ns| > 0 then Split(ns, ',') else []
  }

  /** The value the command line gives a setting, set or not. */
  function CliSetting(cli: Cli, f: Field): Setting
  {
    match f
    case IgnorePrivate => Switch(BoolFlag(cli, SettingFlag(f)))
    case IgnoreFork => Switch(BoolFlag(cli, SettingFlag(f)))
    case UseHTTPSClone => Switch(BoolFlag(cli, SettingFlag(f)))
    case Bare => Switch(BoolFlag(cli, SettingFlag(f)))
    case GithubNamespaceWhitelist => Names(Whitelist(StringFlag(cli, SettingFlag(f))))
    case _ => Text(StringFlag(cli, SettingFlag(f)))
  }

  /** Whether the command line overrides a file setting: its flag was given,
      and for the whitelist the given list is not empty. */
  predicate Overrides(cli: Cli, f: Field) {
    IsSet(cli, SettingFlag(f)) && (f == GithubNamespaceWhitelist ==> StringFlag(cli, SettingFlag(f)) != "")
  }

  /** The migration switches, which only the command line sets. */
  function CliMigration(cli: Cli): Migration
  {
    Migration(
      BoolFlag(cli, MigrationFlag(CreateUserMigration)),
      BoolFlag(cli, MigrationFlag(CreateUserMigrationRetry)),
      IntFlag(cli, MigrationFlag(CreateUserMigrationRetryMax)),
      BoolFlag(cli, MigrationFlag(ListUserMigrations)),
      BoolFlag(cli, MigrationFlag(WaitForUserMigration)))
  }

  /** `buildConfig` without a file: every setting from the command line. */
  function FromCli(cli: Cli): (c: AppConfig)
    ensures c.migration == CliMigration(cli)
  {
    AppConfig(
      StringFlag(cli, SettingFlag(Service)),
      StringFlag(cli, SettingFlag(GitHostURL)),
      StringFlag(cli, SettingFlag(BackupDir)),
      BoolFlag(cli, SettingFlag(IgnorePrivate)),
      BoolFlag(cli, SettingFlag(IgnoreFork)),
      BoolFlag(cli, SettingFlag(UseHTTPSClone)),
      BoolFlag(cli, SettingFlag(Bare)),
      StringFlag(cli, SettingFlag(GithubRepoType)),
      Whitelist(StringFlag(cli, SettingFlag(GithubNamespaceWhitelist))),
      StringFlag(cli, SettingFlag(GitlabProjectVisibility)),
      StringFlag(cli, SettingFlag(GitlabProjectMembershipType)),
      StringFlag(cli, SettingFlag(ForgejoRepoType)),
      CliMigration(cli))
  }

  /** Field by field, the configuration built without a file holds the
      command line's value, given or default. */
  lemma FromCliField(cli: Cli, f: Field)
    ensures Get(FromCli(cli), f) == CliSetting(cli, f)
  {
    match f
    case GithubNamespaceWhitelist =>
    case _ =>
  }

  /** `buildConfig` with a file: the file's settings, each replaced by the
      command line's only where the command line overrides it, and the
      migration switches from the command line. */
  function Merge(cli: Cli, base: AppConfig): (c: AppConfig)
    ensures c.migration == CliMigration(cli)
  {
    var ns := StringFlag(cli, SettingFlag(GithubNamespaceWhitelist));
    AppConfig(
      if IsSet(cli, SettingFlag(Service)) then StringFlag(cli, SettingFlag(Service)) else base.service,
      if IsSet(cli, SettingFlag(GitHostURL)) then StringFlag(cli, SettingFlag(GitHostURL)) else base.gitHostURL,
      if IsSet(cli, SettingFlag(BackupDir)) then StringFlag(cli, SettingFlag(BackupDir)) else base.backupDir,
      if IsSet(cli, SettingFlag(IgnorePrivate)) then BoolFlag(cli, SettingFlag(IgnorePrivate)) else base.ignorePrivate,
      if IsSet(cli, SettingFlag(IgnoreFork)) then BoolFlag(cli, SettingFlag(IgnoreFork)) else base.ignoreFork,
      if IsSet(cli, SettingFlag(UseHTTPSClone)) then BoolFlag(cli, SettingFlag(UseHTTPSClone)) else base.useHTTPSClone,
      if IsSet(cli, SettingFlag(Bare)) then BoolFlag(cli, SettingFlag(Bare)) else base.bare,
      if IsSet(cli, SettingFlag(GithubRepoType)) then StringFlag(cli, SettingFlag(GithubRepoType)) else base.githubRepoType,
      if IsSet(cli, SettingFlag(GithubNamespaceWhitelist)) && |ns| > 0 then Split(ns, ',') else base.githubNamespaceWhitelist,
      if IsSet(cli, SettingFlag(GitlabProjectVisibility)) then StringFlag(cli, SettingFlag(GitlabProjectVisibility)) else base.gitlabProjectVisibility,
      if IsSet(cli, SettingFlag(GitlabProjectMembershipType)) then StringFlag(cli, SettingFlag(GitlabProjectMembershipType))
      else base.gitlabProjectMembershipType,
      if IsSet(cli, SettingFlag(ForgejoRepoType)) then StringFlag(cli, SettingFlag(ForgejoRepoType)) else base.forgejoRepoType,
      CliMigration(cli))
  }

  /** Field by field, the merged configuration holds the command line's
      value where the command line overrides the setting and the base
      value everywhere else. */
  lemma MergeField(cli: Cli, base: AppConfig, f: Field)
    ensures Get(Merge(cli, base), f) == if Overrides(cli, f) then CliSetting(cli, f) else Get(base, f)
  {
    match f
    case GithubNamespaceWhitelist =>
      var ns := StringFlag(cli, SettingFlag(GithubNamespaceWhitelist));
      assert Overrides(cli, f) <==> IsSet(cli, SettingFlag(f)) && |ns| > 0;
    case _ =>
  }

  /** When the command line overrides every setting, the file loaded
      beneath it makes no difference: the merge is the configuration built
      from the command line alone. */
  lemma {:induction false} MergeAllGiven(cli: Cli, base: AppConfig)
    requires forall f :: Overrides(cli, f)
    ensures Merge(cli, base) == FromCli(cli)
  {
    forall f ensures Get(Merge(cli, base), f) == Get(FromCli(cli), f) {
      MergeField(cli, base, f);
      FromCliField(cli, f);
    }
    FieldsDetermine(Merge(cli, base), FromCli(cli));
  }

  /** When the command line overrides no setting, the merge is the file's
      configuration with only the migration switches taken from the command
      line. */
  lemma {:induction false} MergeNoneGiven(cli: Cli, base: AppConfig)
    requires forall f :: !Overrides(cli, f)
    ensures Merge(cli, base) == base.(migration := CliMigration(cli))
  {
    forall f ensures Get(Merge(cli, base), f) == Get(base.(migration := CliMigration(cli)), f) {
      MergeField(cli, base, f);
    }
    FieldsDetermine(Merge(cli, base), base.(migration := CliMigration(cli)));
  }

  /** The last step of `buildConfig`: `setupBackupDir` turns the backup
      directory setting into the directory to use. */
  function WithBackupDir(c: AppConfig, setup: (string, string, string) -> string): (r: AppConfig)
    ensures r.backupDir == setup(c.backupDir, c.service, c.gitHostURL)
    ensures r.(backupDir := c.backupDir) == c
  {
    c.(backupDir := setup(c.backupDir, c.service, c.gitHostURL))
  }

  /** Whether `buildConfig` loads a configuration file: the configuration
      path resolves and something exists there. */
  predicate UsesFile(cli: Cli, configDir: Result<string>, files: Files) {
    var resolved := ResolveConfigPath(StringFlag(cli, ConfigFlag), configDir);
    resolved.Ok? && resolved.value in files
  }

  /** `buildConfig`. */
  function BuildConfig(cli: Cli, configDir: Result<string>, files: Files, setup: (string, string, string) -> string): (r: Result<AppConfig>)
    ensures !UsesFile(cli, configDir, files) ==> r == Ok(WithBackupDir(FromCli(cli), setup))
    ensures UsesFile(cli, configDir, files) ==>
      match LoadConfigFile(StringFlag(cli, ConfigFlag), configDir, files)
      case Err(e) => r == Err(e)
      case Ok(fc) => r == Ok(WithBackupDir(Merge(cli, ToAppConfig(fc)), setup))
    ensures r.Ok? ==> r.value.migration == CliMigration(cli)
  {
    var configPath := StringFlag(cli, ConfigFlag);
    if UsesFile(cli, configDir, files) then
      match LoadConfigFile(configPath, configDir, files)
      case Err(e) => Err(e)
      case Ok(fc) => Ok(WithBackupDir(Merge(cli, ToAppConfig(fc)), setup))
    else Ok(WithBackupDir(FromCli(cli), setup))
  }

  /** A configuration file is the base of a run: a setting whose flag is not
      given keeps the file's value, a given flag wins, and an explicitly
      empty whitelist flag leaves the file's whitelist in place. Only a file
      that exists but cannot be read or parsed stops the run. */
  lemma {:induction false} FilePrecedence(
    cli: Cli, configDir: Result<string>, files: Files, setup: (string, string, string) -> string, f: Field)
    requires UsesFile(cli, configDir, files)
    ensures var path := ResolveConfigPath(StringFlag(cli, ConfigFlag), configDir).value;
      && (BuildConfig(cli, configDir, files, setup).Err? <==> !files[path].Parsed?)
      && (files[path].Parsed? && f != BackupDir ==>
            Get(BuildConfig(cli, configDir, files, setup).value, f)
              == if Overrides(cli, f) then CliSetting(cli, f) else Get(ToAppConfig(files[path].config), f))
      && (files[path].Parsed? && IsSet(cli, SettingFlag(GithubNamespaceWhitelist))
          && StringFlag(cli, SettingFlag(GithubNamespaceWhitelist)) == "" ==>
            BuildConfig(cli, configDir, files, setup).value.githubNamespaceWhitelist
              == files[path].config.github.namespaceWhitelist)
  {
    var path := ResolveConfigPath(StringFlag(cli, ConfigFlag), configDir).value;
    var r := BuildConfig(cli, configDir, files, setup);
    if files[path].Parsed? {
      var fc := files[path].config;
      assert LoadConfigFile(StringFlag(cli, ConfigFlag), configDir, files) == Ok(fc);
      var merged := Merge(cli, ToAppConfig(fc));
      assert r.value == WithBackupDir(merged, setup);
      if f != BackupDir {
        assert r.value.(backupDir := merged.backupDir) == merged;
        assert Get(r.value, f) == Get(merged, f);
      }
      MergeField(cli, ToAppConfig(fc), f);
      MergeField(cli, ToAppConfig(fc), GithubNamespaceWhitelist);
    }
  }

  /** Without a file and without flags, the flag defaults are the run's
      settings, with the backup directory still to be set up. */
  lemma NoFlagsNoFile(configDir: Result<string>, files: Files, setup: (string, string, string) -> string)
    requires !UsesFile(Cli(map[]), configDir, files)
    ensures BuildConfig(Cli(map[]), configDir, files, setup)
      == Ok(WithBackupDir(FlagDefaults, setup))
  {
    CliDefaults();
  }

  /** The run configuration of the flag defaults. */
  const FlagDefaults := AppConfig(
    "", "", "", false, false, false, false, "all", [], "internal", "all", "user",
    Migration(false, true, DefaultMaxUserMigrationRetry, false, true))

  lemma CliDefaults()
    ensures FromCli(Cli(map[])) == FlagDefaults
  {
    var cli := Cli(map[]);
    CliStringDefaults();
    CliMigrationDefaults();
    assert Whitelist(StringFlag(cli, SettingFlag(GithubNamespaceWhitelist))) == [];
  }

  lemma CliStringDefaults()
    ensures var cli := Cli(map[]);
      && StringFlag(cli, SettingFlag(Service)) == ""
      && StringFlag(cli, SettingFlag(GitHostURL)) == ""
      && StringFlag(cli, SettingFlag(BackupDir)) == ""
      && StringFlag(cli, SettingFlag(GithubRepoType)) == "all"
      && StringFlag(cli, SettingFlag(GithubNamespaceWhitelist)) == ""
      && StringFlag(cli, SettingFlag(GitlabProjectVisibility)) == "internal"
      && StringFlag(cli, SettingFlag(GitlabProjectMembershipType)) == "all"
      && StringFlag(cli, SettingFlag(ForgejoRepoType)) == "user"
  {
  }

  lemma CliMigrationDefaults()
    ensures CliMigration(Cli(map[])) == FlagDefaults.migration
  {
  }

  /** The file `init` writes holds the flag defaults for every setting but
      the service, which it sets to `github` where the flag default is empty. */
  lemma DefaultsAgree(f: Field)
    ensures f != Service ==> Get(ToAppConfig(DefaultFileConfig()), f) == CliSetting(Cli(map[]), f)
    ensures Get(ToAppConfig(DefaultFileConfig()), Service) == Text("github")
    ensures CliSetting(Cli(map[]), Service) == Text("")
  {
  }

  /** The message of a run configuration that names no known service. */
  const ServiceMessage := "please specify the git service type: github, gitlab, bitbucket, forgejo"

  /** The message of a run configuration with an unknown GitLab membership. */
  const MembershipMessage := "please specify a valid gitlab project membership - all/owner/member/starred"

  /** `validateConfig`: `None` when valid, else the first failure's message. */
  function ValidateConfig(c: AppConfig): (err: Option<string>)
    ensures err.None? <==> c.service in KnownServices && ValidGitlabProjectMembership(c.gitlabProjectMembershipType)
    ensures c.service !in KnownServices ==> err == Some(ServiceMessage)
    ensures c.service in KnownServices && !ValidGitlabProjectMembership(c.gitlabProjectMembershipType) ==>
      err == Some(MembershipMessage)
  {
    if c.service !in KnownServices then Some(ServiceMessage)
    else if !ValidGitlabProjectMembership(c.gitlabProjectMembershipType) then Some(MembershipMessage)
    else None
  }

  /** A file `validate` accepts gives a run configuration `validateConfig`
      accepts, when no flag overrides it, provided the file's GitLab
      membership is valid; for a GitLab file `validate` already demands that. */
  lemma {:induction false} ValidFileValidRun(
    configDir: Result<string>, files: Files, env: map<string, string>, setup: (string, string, string) -> string)
    requires UsesFile(Cli(map[]), configDir, files)
    requires var path := ResolveConfigPath("", configDir).value;
      files[path].Parsed? && ConfigIssues(files[path].config, env) == []
      && (files[path].config.service == "gitlab" || ValidGitlabProjectMembership(files[path].config.gitlab.projectMembershipType))
    ensures BuildConfig(Cli(map[]), configDir, files, setup).Ok?
    ensures ValidateConfig(BuildConfig(Cli(map[]), configDir, files, setup).value).None?
  {
    var cli := Cli(map[]);
    var path := ResolveConfigPath("", configDir).value;
    var fc := files[path].config;
    assert StringFlag(cli, ConfigFlag) == "";
    assert LoadConfigFile("", configDir, files) == Ok(fc);
    var c := BuildConfig(cli, configDir, files, setup).value;
    FilePrecedence(cli, configDir, files, setup, Service);
    FilePrecedence(cli, configDir, files, setup, GitlabProjectMembershipType);
    assert !Overrides(cli, Service) && !Overrides(cli, GitlabProjectMembershipType);
    assert Get(c, Service) == Text(fc.service);
    assert Get(c, GitlabProjectMembershipType) == Text(fc.gitlab.projectMembershipType);
  }

  /** The two validators differ: `validate` does not look at the GitLab
      section of a GitHub file, but a run checks the membership whatever the
      service, so a GitHub file without a GitLab section passes `validate`
      and is then refused. */
  lemma ValidatorsDiffer(env: map<string, string>)
    requires Getenv(env, "GITHUB_TOKEN") != ""
    ensures var fc := DefaultFileConfig().(gitlab := GitlabSection("", ""));
      ConfigIssues(fc, env) == [] && ValidateConfig(ToAppConfig(fc)) == Some(MembershipMessage)
  {
  }
}

=== FILE: paging.dfy ===
/** The paged listing loop shared by the GitHub, GitLab and Forgejo adapters.

    A provider's listing endpoint is modelled as a pure function from the
    requested page number to a response. The Go loop requests a page, turns
    its records into repositories, stops when the response's next-page number
    is 0 and otherwise requests that next page; any error returns nil and the
    error. Nothing bounds the Go loop, so the model carries `fuel`, the number
    of requests it may make; running out of it is the `Unterminated` outcome,
    where the source would keep requesting pages. */
module Paging {
  import opened Common

  /** One listing response: the page's records and the provider's next-page
      number (0 means there is no further page), or an error. */
  datatype Response<T> = Page(items: seq<T>, nextPage: int) | Failure(err: string)

  /** The outcome of a whole listing: everything, or the error that stopped it
      (never a partial result), or a provider that kept announcing pages. */
  datatype Listing<R> = Listed(repos: seq<R>) | Aborted(err: string) | Unterminated

  /** The listing loop, written as recursion over the requests it makes. */
  function Collect<T, R>(fetch: int -> Response<T>, page: int, fuel: nat, keep: T -> Option<R>): Listing<R>
    decreases fuel
  {
    if fuel == 0 then Unterminated
    else match fetch(page)
      case Failure(e) => Aborted(e)
      case Page(items, next) =>
        if next == 0 then Listed(FilterMap(items, keep))
        else Prepend(FilterMap(items, keep), Collect(fetch, next, fuel - 1, keep))
  }

  /** Puts the repositories of earlier pages in front of a later outcome. */
  function Prepend<R>(front: seq<R>, later: Listing<R>): (r: Listing<R>)
    ensures later.Listed? ==> r == Listed(front + later.repos)
    ensures !later.Listed? ==> r == later
  {
    match later
    case Listed(rs) => Listed(front + rs)
    case _ => later
  }

  /** The page numbers the loop requests, in order, up to and including the
      page whose response ended it. */
  function Requested<T>(fetch: int -> Response<T>, page: int, fuel: nat): seq<int>
    decreases fuel
  {
    if fuel == 0 then []
    else match fetch(page)
      case Failure(_) => [page]
      case Page(_, next) => if next == 0 then [page] else [page] + Requested(fetch, next, fuel - 1)
  }

  /** All records of the successful responses to `pages`, in page order. */
  function Fetched<T>(fetch: int -> Response<T>, pages: seq<int>): seq<T>
  {
    if |pages| == 0 then []
    else
      (match fetch(pages[0]) case Page(items, _) => items case Failure(_) => [])
      + Fetched(fetch, pages[1..])
  }

  /** `pages` starts at `start`, and every page but the last was a successful
      response announcing the next one, which is the next request. */
  ghost predicate Linked<T>(fetch: int -> Response<T>, start: int, pages: seq<int>) {
    && |pages| >= 1
    && pages[0] == start
    && forall i :: 0 <= i < |pages| - 1 ==>
         && fetch(pages[i]).Page?
         && fetch(pages[i]).nextPage != 0
         && pages[i + 1] == fetch(pages[i]).nextPage
  }

  /** A complete walk: linked, and its last page announces no further page. */
  ghost predicate Complete<T>(fetch: int -> Response<T>, start: int, pages: seq<int>) {
    && Linked(fetch, start, pages)
    && fetch(pages[|pages| - 1]).Page?
    && fetch(pages[|pages| - 1]).nextPage == 0
  }

  lemma LinkedTail<T>(fetch: int -> Response<T>, start: int, pages: seq<int>)
    requires Linked(fetch, start, pages) && |pages| >= 2
    ensures Linked(fetch, fetch(start).nextPage, pages[1..])
  {
    assert pages[1] == fetch(pages[0]).nextPage;
    forall i | 0 <= i < |pages[1..]| - 1
      ensures fetch(pages[1..][i]).Page? && fetch(pages[1..][i]).nextPage != 0
      ensures pages[1..][i + 1] == fetch(pages[1..][i]).nextPage
    {
      assert pages[1..][i] == pages[i + 1] && pages[1..][i + 1] == pages[i + 2];
    }
  }

  /** Completeness: along any linked walk that fits in the fuel, the loop
      ends where the walk ends, with the last page's error, or with every
      admitted record of every page, in order. */
  lemma {:induction false} CollectAlongWalk<T, R>(
    fetch: int -> Response<T>, start: int, pages: seq<int>, fuel: nat, keep: T -> Option<R>)
    requires Linked(fetch, start, pages) && |pages| <= fuel
    ensures fetch(pages[|pages| - 1]).Failure? ==>
      Collect(fetch, start, fuel, keep) == Aborted(fetch(pages[|pages| - 1]).err)
    ensures Complete(fetch, start, pages) ==>
      Collect(fetch, start, fuel, keep) == Listed(FilterMap(Fetched(fetch, pages), keep))
    decreases |pages|
  {
    var rest := pages[1..];
    match fetch(start)
    case Failure(_) =>
      // Only the last page of a linked walk may fail, so the walk is [start].
      assert |pages| == 1;
    case Page(items, next) =>
      assert Fetched(fetch, pages) == items + Fetched(fetch, rest);
      if |pages| >= 2 {
        LinkedTail(fetch, start, pages);
        CollectAlongWalk(fetch, next, rest, fuel - 1, keep);
        assert rest[|rest| - 1] == pages[|pages| - 1];
        if Complete(fetch, start, pages) {
          FilterMapAppend(items, Fetched(fetch, rest), keep);
        }
      } else {
        assert rest == [];
        assert Fetched(fetch, pages) == items;
      }
  }

  /** Soundness: the requests the loop makes form a linked walk from `start`
      within the fuel, and each outcome is decided by that walk's last response:
      a page announcing no next page lists every admitted record fetched; an
      error aborts with that error; a page still announcing one after `fuel`
      requests leaves the listing unterminated. */
  lemma {:induction false} CollectOutcome<T, R>(fetch: int -> Response<T>, start: int, fuel: nat, keep: T -> Option<R>)
    requires fuel > 0
    ensures Linked(fetch, start, Requested(fetch, start, fuel))
    ensures |Requested(fetch, start, fuel)| <= fuel
    ensures Collect(fetch, start, fuel, keep).Listed? ==>
      && Complete(fetch, start, Requested(fetch, start, fuel))
      && Collect(fetch, start, fuel, keep).repos == FilterMap(Fetched(fetch, Requested(fetch, start, fuel)), keep)
    ensures Collect(fetch, start, fuel, keep).Aborted? ==>
      fetch(Last(Requested(fetch, start, fuel))) == Failure(Collect(fetch, start, fuel, keep).err)
    ensures Collect(fetch, start, fuel, keep).Unterminated? ==>
      && |Requested(fetch, start, fuel)| == fuel
      && fetch(Last(Requested(fetch, start, fuel))).Page?
      && fetch(Last(Requested(fetch, start, fuel))).nextPage != 0
    decreases fuel
  {
    var pages := Requested(fetch, start, fuel);
    match fetch(start)
    case Failure(_) =>
    case Page(items, next) =>
      if next != 0 {
        if fuel == 1 {
          assert Requested(fetch, next, 0) == [];
          assert pages == [start];
        } else {
          CollectOutcome(fetch, next, fuel - 1, keep);
          var rest := Requested(fetch, next, fuel - 1);
          assert pages == [start] + rest;
          assert pages[1..] == rest;
          assert Last(pages) == Last(rest);
          forall i | 0 <= i < |pages| - 1
            ensures fetch(pages[i]).Page? && fetch(pages[i]).nextPage != 0
            ensures pages[i + 1] == fetch(pages[i]).nextPage
          {
            if i > 0 {
              assert pages[i] == rest[i - 1] && pages[i + 1] == rest[i];
            }
          }
          if Collect(fetch, start, fuel, keep).Listed? {
            assert Fetched(fetch, pages) == items + Fetched(fetch, rest);
            FilterMapAppend(items, Fetched(fetch, rest), keep);
          }
        }
      } else {
        assert pages == [start];
        assert Fetched(fetch, pages) == items + Fetched(fetch, pages[1..]);
        assert pages[1..] == [];
        assert Fetched(fetch, pages) == items;
      }
  }

  /** A successful listing holds exactly the admitted records of the pages
      it requested: each listed value is the image of a fetched record, and
      every admitted fetched record is listed. */
  lemma ListedExactly<T, R>(fetch: int -> Response<T>, start: int, fuel: nat, keep: T -> Option<R>)
    requires Collect(fetch, start, fuel, keep).Listed?
    ensures forall y :: y in Collect(fetch, start, fuel, keep).repos ==>
      exists x :: x in Fetched(fetch, Requested(fetch, start, fuel)) && keep(x) == Some(y)
    ensures forall x :: x in Fetched(fetch, Requested(fetch, start, fuel)) && keep(x).Some? ==>
      keep(x).value in Collect(fetch, start, fuel, keep).repos
  {
    CollectOutcome(fetch, start, fuel, keep);
    var xs := Fetched(fetch, Requested(fetch, start, fuel));
    forall y | y in Collect(fetch, start, fuel, keep).repos
      ensures exists x :: x in xs && keep(x) == Some(y)
    {
      FilterMapOrigin(xs, keep, y);
    }
    forall x | x in xs && keep(x).Some?
      ensures keep(x).value in Collect(fetch, start, fuel, keep).repos
    {
      FilterMapKeeps(xs, keep, x);
    }
  }

  function Last(pages: seq<int>): int
  {
    if |pages| == 0 then 0 else pages[|pages| - 1]
  }

  /** The Go `for {}` loop itself: an accumulator, the current page number,
      and a request per iteration, agreeing with the recursive definition. */
  method Paginate<T, R>(fetch: int -> Response<T>, start: int, fuel: nat, keep: T -> Option<R>)
    returns (r: Listing<R>)
    ensures r == Collect(fetch, start, fuel, keep)
  {
    var acc: seq<R> := [];
    var page := start;
    var left := fuel;
    while true
      invariant Collect(fetch, start, fuel, keep) == Prepend(acc, Collect(fetch, page, left, keep))
      decreases left
    {
      if left == 0 {
        return Unterminated;
      }
      match fetch(page) {
        case Failure(e) =>
          return Aborted(e);
        case Page(items, next) =>
          acc := acc + FilterMap(items, keep);
          if next == 0 {
            return Listed(acc);
          }
          page := next;
          left := left - 1;
      }
    }
  }
}

=== FILE: settings.dfy ===
/** The resolved run configuration (`appConfig`) and the table of services
    the tool knows. */
module Settings {

  /** The services the tool knows, with their default public hosts
      (`knownServices`). */
  const KnownServices: map<string, string> := map[
    "github" := "github.com",
    "gitlab" := "gitlab.com",
    "bitbucket" := "bitbucket.org",
    "forgejo" := "codeberg.org"
  ]

  /** Default number of attempts at creating a GitHub user migration. */
  const DefaultMaxUserMigrationRetry := 5

  /** The GitLab membership selectors the tool accepts (`validGitlabProjectMembership`). */
  predicate ValidGitlabProjectMembership(membershipType: string) {
    membershipType in {"all", "owner", "member", "starred"}
  }

  /** The GitHub user-migration switches, which only the command line sets. */
  datatype Migration = Migration(create: bool, retry: bool, retryMax: int, list: bool, wait: bool)

  /** Go's zero value of the migration switches. */
  const NoMigration := Migration(false, false, 0, false, false)

  /** `appConfig`: everything one run needs. */
  datatype AppConfig = AppConfig(
    service: string,
    gitHostURL: string,
    backupDir: string,
    ignorePrivate: bool,
    ignoreFork: bool,
    useHTTPSClone: bool,
    bare: bool,
    githubRepoType: string,
    githubNamespaceWhitelist: seq<string>,
    gitlabProjectVisibility: string,
    gitlabProjectMembershipType: string,
    forgejoRepoType: string,
    migration: Migration)

  /** The twelve settings a configuration file may hold; each has one
      command-line flag that can override it. */
  datatype Field =
    | Service | GitHostURL | BackupDir
    | IgnorePrivate | IgnoreFork | UseHTTPSClone | Bare
    | GithubRepoType | GithubNamespaceWhitelist
    | GitlabProjectVisibility | GitlabProjectMembershipType
    | ForgejoRepoType

  /** The value of one setting, whatever its Go type. */
  datatype Setting = Text(text: string) | Switch(on: bool) | Names(names: seq<string>)

  function Get(c: AppConfig, f: Field): Setting
  {
    match f
    case Service => Text(c.service)
    case GitHostURL => Text(c.gitHostURL)
    case BackupDir => Text(c.backupDir)
    case IgnorePrivate => Switch(c.ignorePrivate)
    case IgnoreFork => Switch(c.ignoreFork)
    case UseHTTPSClone => Switch(c.useHTTPSClone)
    case Bare => Switch(c.bare)
    case GithubRepoType => Text(c.githubRepoType)
    case GithubNamespaceWhitelist => Names(c.githubNamespaceWhitelist)
    case GitlabProjectVisibility => Text(c.gitlabProjectVisibility)
    case GitlabProjectMembershipType => Text(c.gitlabProjectMembershipType)
    case ForgejoRepoType => Text(c.forgejoRepoType)
  }

  /** Two configurations that agree on every field and on the migration
      switches are the same configuration. */
  lemma FieldsDetermine(a: AppConfig, b: AppConfig)
    requires forall f :: Get(a, f) == Get(b, f)
    requires a.migration == b.migration
    ensures a == b
  {
    assert Get(a, Service) == Get(b, Service);
    assert Get(a, GitHostURL) == Get(b, GitHostURL);
    assert Get(a, BackupDir) == Get(b, BackupDir);
    assert Get(a, IgnorePrivate) == Get(b, IgnorePrivate);
    assert Get(a, IgnoreFork) == Get(b, IgnoreFork);
    assert Get(a, UseHTTPSClone) == Get(b, UseHTTPSClone);
    assert Get(a, Bare) == Get(b, Bare);
    assert Get(a, GithubRepoType) == Get(b, GithubRepoType);
    assert Get(a, GithubNamespaceWhitelist) == Get(b, GithubNamespaceWhitelist);
    assert Get(a, GitlabProjectVisibility) == Get(b, GitlabProjectVisibility);
    assert Get(a, GitlabProjectMembershipType) == Get(b, GitlabProjectMembershipType);
    assert Get(a, ForgejoRepoType) == Get(b, ForgejoRepoType);
  }

  /** The service table holds exactly the four services and their hosts. */
  lemma KnownServicesTable()
    ensures KnownServices.Keys == {"github", "gitlab", "bitbucket", "forgejo"}
    ensures KnownServices["github"] == "github.com" && KnownServices["gitlab"] == "gitlab.com"
    ensures KnownServices["bitbucket"] == "bitbucket.org" && KnownServices["forgejo"] == "codeberg.org"
  {
  }
}
